=== FILE: README.md ===
# rhasspy-client, modelled in Dafny

rhasspy-client is a small asynchronous Python client for the HTTP API of a
Rhasspy voice-assistant server. Most of its methods are one-line wrappers
around an HTTP request. This project models the parts that hold real logic,
as pure functions over immutable data, and proves what they promise:

- **Base URL** (`Client`): the constructor makes `api_url` end with `/`.
- **Sentences file** (`Sentences`): `set_sentences` turns intents and their
  sentences into the text of `sentences.ini`:
  - a `[intent]` header per intent, in sorted order;
  - the intent's sentences, sorted and stripped, with a leading `[` escaped
    as `\[`;
  - a blank line after each section.

  The text is modelled as written, where the `[` test comes before the
  strip (see Findings), and with the strip made first. A small reader for
  the text shows that it reads back as the sections written, for intent
  names and sentences without line breaks. As written, this also needs no
  sentence to be whitespace followed by `[`.
- **Sentence grouping** (`SentenceGroups`): the loop of `get_sentences` that
  groups the entries of the parsed INI sections by intent. It is modelled as
  written (two defects, see Findings) and as intended.
- **Custom words** (`CustomWords`): the decoder of `get_custom_words`, which
  strips each line, skips blank lines, splits once at the first whitespace
  run and collects `word -> set of pronunciations`. Also the encoder of
  `set_custom_words`, which writes one `word pronunciation` line per pair,
  with words sorted and each word's pronunciations sorted. Decoding what was
  encoded gives the map back.
- **Outcome classification** (`Speech`, `Train`): how `speech_to_text` and
  `train` turn an HTTP response into a `Transcription` or a
  `TrainingComplete`, and the two string enums these records carry.
- **Stream chunker** (`Stream`): the `chunk_generator` of the
  `stream-to-text` command, which yields fixed-size chunks of the input up to
  and including the first empty chunk.

Supporting modules:

- `Wrappers`: `Option` and `Result`.
- `Strings`: Python's `strip`, `re.split(r"\s+", s, maxsplit=1)`, splitting
  on `\n`, and lines written with `print`. One fixed set of whitespace
  characters is used throughout: space, tab, `\n`, `\r`, vertical tab and
  form feed.
- `Ordering`: `sorted` on strings, comparing by code point. It includes a
  verified insertion sort, whose result is sorted and a permutation of its
  input, and the sorted sequence of a set.
- `Http`: a response as a status and a body. `raise_for_status` raises
  exactly when the status is 400 or more.

Network I/O is replaced by parameters: a response is its `(status, body)`
pair, and the bytes a reader returns are the source bytes. A read of the
stream chunker behaves as `read(size)` on a buffered binary reader: it returns
`min(size, remaining)` bytes for a positive size, nothing for size 0,
everything left for size -1, and raises `ValueError` for any smaller size.
Since every read uses the same size, a size below -1 fails the first read and
the generator yields nothing.

## Model

| member | source | states |
|---|---|---|
| Client.NormalizeApiUrl | rhasspyclient/__init__.py:28-31 | the stored URL always ends with `/`; a URL already ending with `/` is kept as it is, any other gets exactly one `/` appended |
| Client.NormalizeApiUrlIdempotent | rhasspyclient/__init__.py:30-31 | normalising twice gives the same URL as normalising once |
| Speech.ParseTranscriptionResult | rhasspyclient/speech.py:9-13 | looking up an enum member by value succeeds exactly for "success" and "failure", and the member found carries that value |
| Speech.TranscriptionResultValues | rhasspyclient/speech.py:9-13 | the two members have distinct values, and each value looks up its own member |
| Speech.ClassifyTranscription | rhasspyclient/__init__.py:156-170 | SUCCESS exactly when the status is below 400 and the body is non-empty, and then the text is the body; otherwise FAILURE with empty text; the metrics are always zero |
| Speech.ClassifyTranscriptionExamples | rhasspyclient/__init__.py:162-170 | status 200 with an empty body fails, status 200 with text succeeds with that text, status 500 fails with the record's defaults |
| Train.ParseTrainingResult | rhasspyclient/train.py:10-14 | looking up an enum member by value succeeds exactly for "success" and "failure", and the member found carries that value |
| Train.TrainingResultValues | rhasspyclient/train.py:10-14 | the two members have distinct values, and each value looks up its own member |
| Train.TrainParams | rhasspyclient/__init__.py:140-142 | the query has `no_cache` exactly when no-cache is asked for, and `no_cache=true` is the only parameter it can hold |
| Train.ClassifyTraining | rhasspyclient/__init__.py:144-152 | SUCCESS exactly when the status is below 400, with no errors; FAILURE otherwise, carrying the whole response body as its errors |
| Train.TrainingIgnoresBodyOnSuccess | rhasspyclient/__init__.py:145-149 | below status 400 the outcome is the same whatever the body says |
| Train.ClassifyTrainingExamples | rhasspyclient/__init__.py:144-152 | status 200 gives a success with no errors; status 400 gives a failure carrying the body |
| Stream.ReadLength | rhasspyclient/__main__.py:152 | for a size `read` accepts, the bytes read fit in what remains, and the read is empty exactly when the size is 0 or the source is used up |
| Stream.ReadLengthExact | rhasspyclient/__main__.py:152 | a read comes back short only at the end of the source: a positive size reads that many bytes while they last, and -1 reads everything left |
| Stream.Read | rhasspyclient/__main__.py:152 | `read(size)` fails exactly for a size below -1, with that size as the error; otherwise it returns the next bytes of the source |
| Stream.ChunksFrom | rhasspyclient/__main__.py:151-156 | for a size `read` accepts, reading from any position yields at least one chunk, and the last chunk is empty |
| Stream.ChunksShape | rhasspyclient/__main__.py:152-156 | only the last chunk is empty, and for a positive chunk size every chunk holds at most that many bytes |
| Stream.ChunksFromShape | rhasspyclient/__main__.py:152-156 | the same single empty chunk and bound hold for the chunks read from any position |
| Stream.ChunksConcat | rhasspyclient/__main__.py:152-156 | for a size `read` accepts, concatenating the chunks gives back the source bytes in order, except for size 0, where nothing is read |
| Stream.ChunksFromConcat | rhasspyclient/__main__.py:152-156 | for a size `read` accepts, concatenating the chunks read from a position gives back the source from that position on, unless the chunk size is 0 |
| Stream.ChunksOfNonPositive | rhasspyclient/__main__.py:69-74 | the command line accepts any integer size; of the non-positive ones `read` accepts: with 0 the only chunk is the empty one, and with -1 the whole input is one chunk, followed by the empty one |
| Stream.ChunksExample | rhasspyclient/__main__.py:69-74 | 2500 bytes at the default size of 1024 are read as chunks of 1024, 1024 and 452 bytes, then the empty chunk |
| Stream.ChunkGenerator | rhasspyclient/__main__.py:151-156 | the generator raises the read error exactly when the chunk size is below -1; for any other size its loop yields exactly the chunk sequence: the chunks concatenate to the source (to nothing for size 0), the last is empty, and none exceeds a positive chunk size |
| Strings.Strip | rhasspyclient/__init__.py:107 | the result has no whitespace at either end, is the part of the line after its leading whitespace run, and only whitespace follows it |
| Strings.SplitAtSpace | rhasspyclient/__init__.py:113 | one field exactly when the line has no whitespace; otherwise the line is the first field, then a non-empty whitespace run, then the rest, and the first field has no whitespace |
| Strings.SplitJoinLines | rhasspyclient/__init__.py:126-127 | splitting on `\n` the text written line by line with `print` gives back the lines, plus the empty piece after the last line break |
| Ordering.Sort | rhasspyclient/__init__.py:82 | the result is sorted by code point and is a permutation of the input |
| Ordering.SortSet | rhasspyclient/__init__.py:121 | the result is strictly ascending, has one element per member of the set, and holds exactly the set's members |
| Ordering.SortedUnique | rhasspyclient/__init__.py:82 | two sorted sequences that are permutations of each other are equal, so `sorted` has one possible result |
| CustomWords.DecodeLine | rhasspyclient/__init__.py:107-113 | a line is blank exactly when it strips to nothing; it is malformed exactly when its stripped text is non-blank without whitespace; otherwise the word and pronunciation are non-empty, the word has no whitespace, and the pronunciation is stripped |
| CustomWords.DecodeLineFields | rhasspyclient/__init__.py:113 | a decoded pair is the stripped line cut at its first whitespace run: the word before it, the pronunciation after it |
| CustomWords.FieldsUnique | rhasspyclient/__init__.py:113 | a stripped line splits into a word and a pronunciation in at most one way |
| CustomWords.FieldsDecode | rhasspyclient/__init__.py:113 | any line whose stripped text splits into a word and a pronunciation decodes to exactly that pair |
| CustomWords.AddPair | rhasspyclient/__init__.py:114 | adding a pair adds the pronunciation to its word's set, creating the set if needed, and leaves every other word alone |
| CustomWords.Accumulate | rhasspyclient/__init__.py:105-116 | the result is an error exactly when some line is malformed, and then it names the first malformed line; otherwise a word maps to a pronunciation exactly when that pair occurs, and repeated pairs collapse into one set element |
| CustomWords.DecodeLinesFails | rhasspyclient/__init__.py:110-113 | decoding fails exactly when some line strips to non-blank text without whitespace |
| CustomWords.DecodeLinesPairs | rhasspyclient/__init__.py:106-114 | after successful decoding, a word maps to a pronunciation exactly when some line's stripped text splits into that word and that pronunciation |
| CustomWords.PairDecodedIff | rhasspyclient/__init__.py:107-113 | a line decodes to a given pair exactly when its stripped text splits into that word and pronunciation |
| CustomWords.Entries | rhasspyclient/__init__.py:121-126 | the encoder emits a (word, pronunciation) entry exactly for each pair of the map, so a word with an empty set emits nothing |
| CustomWords.EntriesOrdered | rhasspyclient/__init__.py:121-126 | the entries are ordered by word first, then by pronunciation within a word, each strictly |
| CustomWords.EncodeLines | rhasspyclient/__init__.py:107-127 | one printed line per entry, in order; for a well-formed map each line has no line break and decodes back to its entry |
| CustomWords.Decode | rhasspyclient/__init__.py:101-116 | `get_custom_words` over the body's lines: it fails exactly when some non-blank stripped line has no whitespace; otherwise a word maps to a pronunciation exactly when some stripped line splits into those two fields |
| CustomWords.Encode | rhasspyclient/__init__.py:118-127 | `set_custom_words`'s body is read back by `get_custom_words` as the same map, when every word is non-empty without whitespace, every set is non-empty, and every pronunciation is non-empty, stripped and has no line break |
| CustomWords.EncodedLineDecodes | rhasspyclient/__init__.py:107-127 | a line written for a well-formed pair has no line break and decodes to that same pair |
| CustomWords.RoundTrip | rhasspyclient/__init__.py:101-127 | decoding the encoded text gives back the map, when every word is non-empty without whitespace, every set is non-empty, and every pronunciation is non-empty, stripped and has no line break |
| Sentences.EmitSentenceAsWritten | rhasspyclient/__init__.py:83-87 | as written: a sentence starting with `[` is written as `\` followed by the sentence with trailing whitespace removed; any other sentence is only stripped; the line written is always stripped |
| Sentences.EmitSentence | rhasspyclient/__init__.py:83-87 | with the strip made first: the printed string is the stripped sentence, behind `\` exactly when it starts with `[`, so it never starts with `[` |
| Sentences.EmitSentenceAgrees | rhasspyclient/__init__.py:83-87 | the two versions print the same string for a sentence exactly when it is not whitespace followed by a `[` text |
| Sentences.EmitSentenceAsWrittenUnescaped | rhasspyclient/__init__.py:83-87 | as written, a `[` sentence behind a whitespace character comes out unescaped, and as a header line when it ends with `]`; the corrected version escapes it |
| Sentences.SectionsWith | rhasspyclient/__init__.py:80-87 | one section per intent, intent names strictly ascending, each holding the intent's sentences sorted and written by the given rule |
| Sentences.SectionsCover | rhasspyclient/__init__.py:80-81 | every intent of the input has a section |
| Sentences.Encode | rhasspyclient/__init__.py:77-90 | as written: the body sent is empty exactly when there are no intents |
| Sentences.SectionsAgree | rhasspyclient/__init__.py:80-87 | the sections as written equal the corrected ones exactly when no sentence is whitespace followed by a `[` text |
| Sentences.LayoutRoundTrip | rhasspyclient/__init__.py:80-90 | header, lines and blank line per section can be read back into the sections, when no section line starts with `[` |
| Sentences.ReadPrinted | rhasspyclient/__init__.py:81-90 | the text printed from strings without line breaks splits into those same strings as its lines |
| Sentences.CorrectedEncodeRoundTrip | rhasspyclient/__init__.py:77-90 | with the strip made first, the text sent for intent names and sentences without line breaks reads back as exactly the sections written: every intent in order, with all its sentence lines |
| Sentences.EncodeRoundTrip | rhasspyclient/__init__.py:77-90 | as written, the text sent reads back as exactly the sections written, for intent names and sentences without line breaks and no sentence that is whitespace followed by `[` |
| Sentences.EncodeHiddenHeader | rhasspyclient/__init__.py:83-87 | as written, an intent whose one sentence is whitespace and then a header-shaped text is sent with that text as a header line, and the body no longer reads back; the corrected version escapes it |
| SentenceGroups.Group | rhasspyclient/__init__.py:66-73 | as intended: an intent is present exactly when its sections hold at least one entry, and its list is the rendering of those entries in section order and entry order |
| SentenceGroups.GroupByCollects | rhasspyclient/__init__.py:66-73 | the append loop agrees with a reference that concatenates, section by section, the renderings of each section with that name |
| SentenceGroups.GroupDistinct | rhasspyclient/__init__.py:66-73 | with one section per intent, the intent's list holds its entries in order, a sentence as itself and a rule as `key = value` |
| SentenceGroups.UnpackAll | rhasspyclient/__init__.py:67 | a section unpacks exactly when all its keys have two characters; otherwise the error names a key that did not unpack |
| SentenceGroups.GroupAsWritten | rhasspyclient/__init__.py:66-73 | as written: the grouping succeeds exactly when every key in every section has two characters, and then has a list for each section with entries |
| SentenceGroups.GroupAsWrittenFails | rhasspyclient/__init__.py:67 | a section holding the sentence "what time is it" makes the loop as written raise, while the intended grouping keeps the sentence |
| SentenceGroups.GroupValuesAsWritten | rhasspyclient/__init__.py:68-73 | with pairs unpacked, as written: lists follow the same section and entry order, but hold what was appended, the missing value for a sentence |
| SentenceGroups.GroupValuesAsWrittenLosesSentences | rhasspyclient/__init__.py:68-70 | with one section per intent, every sentence appears in its intent's list as the missing value, not as its text |

## Left out

- Network I/O, `aiohttp` sessions and `async with`: a response is modelled only as its status and body text. Response bytes are taken as already decoded from UTF-8.
- The JSON and plain pass-through endpoints are one-line wrappers around a request, so they are left out: `text_to_intent`, `text_to_speech`, `get_slots`/`set_slots`, `get_profile`/`set_profile`, `get_pronunciations`, `restart`, `version`, `wakeup_and_wait` and `stream_to_text`. Their fixed query strings, such as `nohass` set to the text of `not handle_intent`, are not modelled.
- Endpoint URLs built with `urljoin` are not modelled: only the base URL ending in `/` is. General reference resolution (section 5.2 of RFC 3986) is outside the model.
- `configparser` is not part of this model. `get_sentences` is modelled from already-parsed sections of `(key, optional value)` entries, so its `=` delimiter handling, duplicate handling and missing-header errors are out of scope. For the same reason, no decoding of the sentences file is claimed to undo `set_sentences`: the client never removes the `\` escape. The reader `Sentences.ReadText` only shows that the layout of sections is unambiguous.
- The custom-words body is modelled as text split on `\n`. The HTTP stream reader's own line iteration is not modelled; it keeps each `\n`, which strip removes.
- CustomWords.Decode: fails only on malformed lines. The HTTP stream reader also raises an error for a line longer than its buffer limit, and that error is not modelled, because the limit belongs to the HTTP library, not to this client.
- The `isinstance(..., str)` branch of `set_custom_words` is left out, because a map to sets of strings cannot hold a bare string.
- Python's full Unicode whitespace set for `strip` and `\s` is replaced by one fixed set of six ASCII whitespace characters.
- The float metrics of `Transcription` are modelled as reals and only in their zero defaults.
- Speech.ClassifyTranscription: models `assert text` with Python assertions enabled. Under `python -O` the assert is dropped, and a 200 response with an empty body would succeed with empty text.
- Sentences.EncodeRoundTrip and Sentences.CorrectedEncodeRoundTrip: stated only for intent names and sentences without line breaks. A sentence such as `a\n[b]` is printed as two lines, the second of them header-shaped, so its text does not read back as the sections written.
- SentenceGroups.Group: the key order of the returned `defaultdict` (intents in the order their sections come) is not modelled, because a Dafny `map` has no order; dict equality ignores key order, so no promise made here depends on it.
- CustomWords.Accumulate: the key order of the returned `defaultdict` (words in order of first appearance) is not modelled, for the same reason; `CustomWords.RoundTrip` compares dicts, which ignores key order.
- The command-line interface, logging, JSON printing and reading of stdin and files are left out, except the chunk generator and its default chunk size of 1024.
- The REST responses of `set_sentences` and `set_custom_words` are left out: each returns the server's reply text after `raise_for_status`. Only the request bodies they build are modelled.

## Findings

| source | as written | input that shows it | evidently intended | confidence | as-written member | corrected member |
|---|---|---|---|---|---|---|
| rhasspyclient/__init__.py:67 | `for key, value in parser[intent_name]` iterates a section, which yields key strings only, and unpacks each key into two names | a section `[GetTime]` holding the sentence `what time is it`: unpacking a 15-character string raises | iterate `.items()` so that each entry gives its key and value | high (not executed) | SentenceGroups.GroupAsWrittenFails | SentenceGroups.GroupDistinct |
| rhasspyclient/__init__.py:68-70 | when `value is None` (a sentence), the loop appends `value`, which is `None` | a section `[GetTime]` holding the sentence `what time is it` gives the list `[None]` | append the key, the sentence text | high (not executed) | SentenceGroups.GroupValuesAsWrittenLosesSentences | SentenceGroups.GroupDistinct |
| rhasspyclient/__init__.py:83-87 | the `[` test is made before `.strip()`, so a sentence with whitespace before its `[` is not escaped | the sentence ` [b]` is written as the line `[b]`, which reads as a section header | strip first, then escape a leading `[` | medium (not executed) | Sentences.EncodeHiddenHeader | Sentences.CorrectedEncodeRoundTrip |

=== FILE: client.dfy ===
/**
 * The part of the client's constructor that is pure: normalising the base
 * API URL so that it ends with '/', which makes every endpoint URL the base
 * followed by the endpoint's name.
 */
module Client {
  import opened Strings

  /** The `api_url` the constructor stores: the given URL with '/' appended if missing. */
  function NormalizeApiUrl(url: string): (r: string)
    ensures EndsWith(r, '/')
    ensures EndsWith(url, '/') ==> r == url
    ensures !EndsWith(url, '/') ==> r == url + "/"
  {
    if EndsWith(url, '/') then url else url + "/"
  }

  /** Normalising a normalised URL changes nothing. */
  lemma NormalizeApiUrlIdempotent(url: string)
    ensures NormalizeApiUrl(NormalizeApiUrl(url)) == NormalizeApiUrl(url)
  {
  }
}

=== FILE: custom_words.dfy ===
/**
 * The custom-words (pronunciation dictionary) text format: one
 * `word pronunciation` line per pair, the word ending at the first
 * whitespace run. `get_custom_words` decodes it into a set of pronunciations
 * per word; `set_custom_words` encodes such a map back into lines.
 */
module CustomWords {
  import opened Wrappers
  import opened Strings
  import opened Ordering

  /** Pronunciations grouped by word. */
  type Pronunciations = map<string, set<string>>

  /** What one line of the body contributes; a malformed line keeps its stripped text. */
  datatype Line = Blank | Pair(word: string, pronunciation: string) | Malformed(text: string)

  /**
   * The `ValueError` of the two-way unpack, raised for a non-blank line with
   * no whitespace; it carries that line, stripped.
   */
  datatype DecodeError = MalformedLine(line: string)

  /**
   * One line of the body: stripped, skipped if blank, otherwise split once
   * on the first whitespace run into word and pronunciation.
   */
  function DecodeLine(raw: string): (r: Line)
    ensures r.Blank? <==> Strip(raw) == ""
    ensures r.Malformed? <==> Strip(raw) != "" && NoSpace(Strip(raw))
    ensures r.Malformed? ==> r.text == Strip(raw)
    ensures r.Pair? ==> && |r.word| > 0 && NoSpace(r.word)
                        && |r.pronunciation| > 0 && Stripped(r.pronunciation)
                        && |r.word| + |r.pronunciation| < |Strip(raw)|
  {
    DecodeStripped(Strip(raw))
  }

  /**
   * The pair of a line is made of its fields: the word is the stripped
   * line's text before its first whitespace run and the pronunciation the
   * text after that run.
   */
  lemma DecodeLineFields(raw: string)
    ensures DecodeLine(raw).Pair? ==> FieldsOf(Strip(raw), DecodeLine(raw).word, DecodeLine(raw).pronunciation)
  {
    var t := Strip(raw);
    if t != "" {
      match SplitAtSpace(t)
      case OneField =>
      case TwoFields(w, run, p) =>
        SplitStripped(t, w, run, p);
    }
  }

  /**
   * `word` and `pronunciation` are the two fields of the stripped line `t`:
   * `word` is the non-empty text before the first whitespace run and
   * `pronunciation` the non-empty, stripped text after that run.
   */
  predicate FieldsOf(t: string, word: string, pronunciation: string) {
    && |word| > 0 && NoSpace(word)
    && |pronunciation| > 0 && Stripped(pronunciation)
    && |word| + |pronunciation| < |t|
    && t[..|word|] == word
    && AllSpace(t[|word|..|t| - |pronunciation|])
    && t[|t| - |pronunciation|..] == pronunciation
  }

  /** `DecodeLine` once the line is stripped. */
  function DecodeStripped(t: string): (r: Line)
    requires Stripped(t)
    ensures r.Blank? <==> t == ""
    ensures r.Malformed? <==> t != "" && NoSpace(t)
    ensures r.Malformed? ==> r.text == t
    ensures r.Pair? ==> && |r.word| > 0 && NoSpace(r.word)
                        && |r.pronunciation| > 0 && Stripped(r.pronunciation)
                        && |r.word| + |r.pronunciation| < |t|
  {
    if t == "" then Blank
    else
      match SplitAtSpace(t)
      case OneField => Malformed(t)
      case TwoFields(w, run, p) =>
        SplitStripped(t, w, run, p);
        Pair(w, p)
  }

  /**
   * Splitting a stripped, non-blank line with whitespace yields two non-empty
   * fields around the run, the second one stripped.
   */
  lemma SplitStripped(t: string, w: string, run: string, p: string)
    requires Stripped(t) && t != ""
    requires NoSpace(w) && |run| > 0 && AllSpace(run) && (|p| == 0 || !IsSpace(p[0]))
    requires t == w + run + p
    ensures FieldsOf(t, w, p)
  {
    assert t[|t| - 1] == p[|p| - 1];
    assert t[|w|..|t| - |p|] == run;
  }

  /** `pronunciations[word].add(pronunciation)` on a `defaultdict(set)`. */
  function AddPair(m: Pronunciations, word: string, pronunciation: string): (r: Pronunciations)
    ensures r.Keys == m.Keys + {word}
    ensures r[word] == (if word in m then m[word] else {}) + {pronunciation}
    ensures forall w :: w in m && w != word ==> r[w] == m[w]
    ensures forall w, p :: (w in r && p in r[w]) <==> (w in m && p in m[w]) || (w == word && p == pronunciation)
  {
    m[word := (if word in m then m[word] else {}) + {pronunciation}]
  }

  /** No line of `ls` is malformed. */
  predicate AllWellFormed(ls: seq<Line>) {
    forall i :: 0 <= i < |ls| ==> !ls[i].Malformed?
  }

  /**
   * The loop of `get_custom_words` over the decoded lines: the first
   * malformed line raises; otherwise every pair is added to its word's set.
   */
  function Accumulate(ls: seq<Line>): (r: Result<Pronunciations, DecodeError>)
    ensures r.Ok? <==> AllWellFormed(ls)
    ensures r.Ok? ==> forall w :: w in r.value ==> r.value[w] != {}
    ensures r.Ok? ==> forall w, p :: (w in r.value && p in r.value[w]) <==> Pair(w, p) in ls
    ensures r.Err? ==> exists i :: 0 <= i < |ls| && ls[i] == Malformed(r.error.line) && AllWellFormed(ls[..i])
  {
    if |ls| == 0 then Ok(map[])
    else
      var init := ls[..|ls| - 1];
      var last := ls[|ls| - 1];
      assert ls == init + [last];
      match Accumulate(init)
      case Err(e) =>
        var i :| 0 <= i < |init| && init[i] == Malformed(e.line) && AllWellFormed(init[..i]);
        assert ls[..i] == init[..i];
        Err(e)
      case Ok(m) =>
        match last
        case Blank => Ok(m)
        case Malformed(text) =>
          assert ls[..|ls| - 1] == init;
          Err(MalformedLine(text))
        case Pair(word, pron) => Ok(AddPair(m, word, pron))
  }

  /** The decoding of each line of `lines`, in order. */
  function DecodeEach(lines: seq<string>): (ls: seq<Line>)
    ensures |ls| == |lines|
    ensures forall i :: 0 <= i < |lines| ==> ls[i] == DecodeLine(lines[i])
  {
    seq(|lines|, i requires 0 <= i < |lines| => DecodeLine(lines[i]))
  }

  /** `get_custom_words` over the lines of the body. */
  function DecodeLines(lines: seq<string>): Result<Pronunciations, DecodeError> {
    Accumulate(DecodeEach(lines))
  }

  /**
   * `get_custom_words`: the body, split into lines on '\n', then decoded. It
   * fails exactly when some non-blank line has no whitespace once stripped;
   * otherwise a word maps to a pronunciation exactly when some stripped line
   * splits into those two fields.
   */
  function Decode(body: string): (r: Result<Pronunciations, DecodeError>)
    ensures r.Err? <==>
              exists i :: 0 <= i < |SplitLines(body)| && Strip(SplitLines(body)[i]) != "" && NoSpace(Strip(SplitLines(body)[i]))
    ensures r.Ok? ==> forall w, p :: (w in r.value && p in r.value[w]) <==> HasFields(SplitLines(body), w, p)
  {
    var lines := SplitLines(body);
    DecodeLinesFails(lines);
    if DecodeLines(lines).Ok? then
      DecodeLinesPairs(lines);
      DecodeLines(lines)
    else
      DecodeLines(lines)
  }

  /** `(word, pronunciation)` pairs ordered by word, then by pronunciation. */
  predicate PairLess(a: (string, string), b: (string, string)) {
    Less(a.0, b.0) || (a.0 == b.0 && Less(a.1, b.1))
  }

  /** The pairs of one word, pronunciations in the given order. */
  function WordEntries(word: string, pronunciations: seq<string>): (r: seq<(string, string)>)
    ensures |r| == |pronunciations|
    ensures forall i :: 0 <= i < |r| ==> r[i] == (word, pronunciations[i])
  {
    seq(|pronunciations|, i requires 0 <= i < |pronunciations| => (word, pronunciations[i]))
  }

  /**
   * The pairs of the words `words`, in order, each word's pronunciations
   * sorted: the two nested loops of `set_custom_words`.
   */
  function EntriesOf(words: seq<string>, m: Pronunciations): (r: seq<(string, string)>)
    requires forall i :: 0 <= i < |words| ==> words[i] in m
    ensures forall e :: e in r <==> e.0 in words && e.0 in m && e.1 in m[e.0]
  {
    if |words| == 0 then []
    else
      var w := words[0];
      var head := WordEntries(w, SortSet(m[w]));
      var tail := EntriesOf(words[1..], m);
      assert forall e :: e in head <==> e.0 == w && e.1 in m[w] by {
        forall e: (string, string) | e.0 == w && e.1 in m[w]
          ensures e in head
        {
          var k :| 0 <= k < |SortSet(m[w])| && SortSet(m[w])[k] == e.1;
          assert head[k] == e;
        }
      }
      assert forall e :: e in head + tail <==> e in head || e in tail;
      head + tail
  }

  /**
   * For strictly ascending words, the pairs come ordered by word and then by
   * pronunciation, so no pair is written twice.
   */
  lemma {:induction false} EntriesOfOrdered(words: seq<string>, m: Pronunciations)
    requires StrictlySorted(words)
    requires forall i :: 0 <= i < |words| ==> words[i] in m
    ensures forall i, j :: 0 <= i < j < |EntriesOf(words, m)| ==> PairLess(EntriesOf(words, m)[i], EntriesOf(words, m)[j])
  {
    if |words| > 0 {
      var w := words[0];
      var head := WordEntries(w, SortSet(m[w]));
      var tail := EntriesOf(words[1..], m);
      EntriesOfOrdered(words[1..], m);
      assert forall e :: e in tail ==> Less(w, e.0) by {
        forall e: (string, string) | e in tail
          ensures Less(w, e.0)
        {
          var k :| 1 <= k < |words| && words[k] == e.0;
        }
      }
      var r := head + tail;
      assert r == EntriesOf(words, m);
      forall i, j | 0 <= i < j < |r|
        ensures PairLess(r[i], r[j])
      {
        if j < |head| {
        } else if i >= |head| {
          assert r[i] == tail[i - |head|] && r[j] == tail[j - |head|];
        } else {
          assert r[j] == tail[j - |head|] && r[j] in tail;
        }
      }
    }
  }

  /**
   * The pairs `set_custom_words` writes, in the order it writes them: one
   * per pronunciation of each word, so a word with no pronunciations
   * contributes nothing.
   */
  function Entries(m: Pronunciations): (r: seq<(string, string)>)
    ensures forall w, p :: (w, p) in r <==> w in m && p in m[w]
  {
    var words := SortSet(m.Keys);
    var r := EntriesOf(words, m);
    assert forall w, p :: (w, p) in r <==> w in words && w in m && p in m[w];
    r
  }

  /**
   * `set_custom_words` writes the pairs sorted by word and then by
   * pronunciation, each exactly once.
   */
  lemma EntriesOrdered(m: Pronunciations)
    ensures forall i, j :: 0 <= i < j < |Entries(m)| ==> PairLess(Entries(m)[i], Entries(m)[j])
  {
    EntriesOfOrdered(SortSet(m.Keys), m);
  }

  /**
   * The lines `print(word, pronunciation)` writes, one per entry: for a
   * well-formed map, each is a single line that decodes to its entry.
   */
  function EncodeLines(m: Pronunciations): (lines: seq<string>)
    ensures |lines| == |Entries(m)|
    ensures forall i :: 0 <= i < |lines| ==> lines[i] == Entries(m)[i].0 + " " + Entries(m)[i].1
    ensures WellFormed(m) ==> forall i :: 0 <= i < |lines| ==>
              NoNewline(lines[i]) && DecodeLine(lines[i]) == Pair(Entries(m)[i].0, Entries(m)[i].1)
  {
    var e := Entries(m);
    var lines := seq(|e|, i requires 0 <= i < |e| => e[i].0 + " " + e[i].1);
    EntryLinesDecode(m, lines);
    lines
  }

  /** Each line written for an entry of a well-formed map is one line that decodes to the entry. */
  lemma EntryLinesDecode(m: Pronunciations, lines: seq<string>)
    requires |lines| == |Entries(m)|
    requires forall i :: 0 <= i < |lines| ==> lines[i] == Entries(m)[i].0 + " " + Entries(m)[i].1
    ensures WellFormed(m) ==> forall i :: 0 <= i < |lines| ==>
              NoNewline(lines[i]) && DecodeLine(lines[i]) == Pair(Entries(m)[i].0, Entries(m)[i].1)
  {
    if WellFormed(m) {
      var e := Entries(m);
      forall i | 0 <= i < |lines|
        ensures NoNewline(lines[i]) && DecodeLine(lines[i]) == Pair(e[i].0, e[i].1)
      {
        assert e[i] in e;
        EncodedLineDecodes(e[i].0, e[i].1);
      }
    }
  }

  /**
   * `set_custom_words`: the request body, one printed line per entry. For a
   * well-formed map, `get_custom_words` reads the body back as the same map.
   */
  function Encode(m: Pronunciations): (body: string)
    ensures WellFormed(m) ==> Decode(body) == Ok(m)
  {
    var body := JoinLines(EncodeLines(m));
    if WellFormed(m) then
      EncodedLinesDecode(m);
      DecodeEachFinalPiece(EncodeLines(m));
      SplitJoinLines(EncodeLines(m));
      AccumulateEntries(m);
      body
    else
      body
  }

  /** The two fields of a stripped line are determined by the line. */
  lemma FieldsUnique(t: string, w1: string, p1: string, w2: string, p2: string)
    requires FieldsOf(t, w1, p1) && FieldsOf(t, w2, p2)
    ensures w1 == w2 && p1 == p2
  {
    // Each word ends where whitespace first occurs.
    assert IsSpace(t[|w1|]) by {
      assert t[|w1|] == t[|w1|..|t| - |p1|][0];
    }
    assert IsSpace(t[|w2|]) by {
      assert t[|w2|] == t[|w2|..|t| - |p2|][0];
    }
    assert forall k :: 0 <= k < |w1| ==> t[k] == w1[k];
    assert forall k :: 0 <= k < |w2| ==> t[k] == w2[k];
    assert |w1| == |w2|;
    // Each pronunciation starts where that whitespace run ends.
    assert !IsSpace(t[|t| - |p1|]) && !IsSpace(t[|t| - |p2|]);
    assert forall k :: |w1| <= k < |t| - |p1| ==> t[k] == t[|w1|..|t| - |p1|][k - |w1|];
    assert forall k :: |w2| <= k < |t| - |p2| ==> t[k] == t[|w2|..|t| - |p2|][k - |w2|];
    assert |p1| == |p2|;
  }

  /**
   * `get_custom_words` raises exactly when some line, once stripped, is
   * non-blank and has no whitespace.
   */
  lemma DecodeLinesFails(lines: seq<string>)
    ensures DecodeLines(lines).Err? <==>
              exists i :: 0 <= i < |lines| && Strip(lines[i]) != "" && NoSpace(Strip(lines[i]))
  {
    var ls := DecodeEach(lines);
    assert DecodeLines(lines) == Accumulate(ls);
    if exists i :: 0 <= i < |lines| && Strip(lines[i]) != "" && NoSpace(Strip(lines[i])) {
      var i :| 0 <= i < |lines| && Strip(lines[i]) != "" && NoSpace(Strip(lines[i]));
      assert ls[i].Malformed?;
    }
  }

  /**
   * Otherwise the result holds exactly the pairs of fields of the lines:
   * the word before the first whitespace run, the pronunciation after it.
   */
  lemma DecodeLinesPairs(lines: seq<string>)
    requires DecodeLines(lines).Ok?
    ensures forall w, p :: (w in DecodeLines(lines).value && p in DecodeLines(lines).value[w]) <==>
                           HasFields(lines, w, p)
  {
    forall w, p
      ensures (w in DecodeLines(lines).value && p in DecodeLines(lines).value[w]) <==> HasFields(lines, w, p)
    {
      PairDecodedIff(lines, w, p);
    }
  }

  /** Some line of `lines`, once stripped, has the fields `w` and `p`. */
  predicate HasFields(lines: seq<string>, w: string, p: string) {
    exists i :: 0 <= i < |lines| && FieldsOf(Strip(lines[i]), w, p)
  }

  /** A pair is decoded from `lines` exactly when some line has it as its fields. */
  lemma PairDecodedIff(lines: seq<string>, w: string, p: string)
    ensures Pair(w, p) in DecodeEach(lines) <==> HasFields(lines, w, p)
  {
    var ls := DecodeEach(lines);
    if Pair(w, p) in ls {
      var i :| 0 <= i < |ls| && ls[i] == Pair(w, p);
      DecodeLineFields(lines[i]);
    }
    if HasFields(lines, w, p) {
      var i :| 0 <= i < |lines| && FieldsOf(Strip(lines[i]), w, p);
      FieldsDecode(lines[i], w, p);
      assert ls[i] == Pair(w, p);
    }
  }

  /** A line whose stripped text has the fields `w` and `p` decodes to that pair. */
  lemma FieldsDecode(raw: string, w: string, p: string)
    requires FieldsOf(Strip(raw), w, p)
    ensures DecodeLine(raw) == Pair(w, p)
  {
    var t := Strip(raw);
    assert t != "" && !NoSpace(t) by {
      assert t[|w|] == t[|w|..|t| - |p|][0];
    }
    var r := DecodeLine(raw);
    DecodeLineFields(raw);
    FieldsUnique(t, w, p, r.word, r.pronunciation);
  }

  /** The conditions under which encoding and decoding are inverse. */
  predicate WellFormed(m: Pronunciations) {
    forall w :: w in m ==>
      && |w| > 0 && NoSpace(w) && m[w] != {}
      && forall p :: p in m[w] ==> |p| > 0 && NoNewline(p) && Stripped(p)
  }

  /** A line `print(word, pronunciation)` writes is one stripped line with these fields. */
  lemma EncodedLineShape(w: string, p: string)
    requires |w| > 0 && NoSpace(w) && |p| > 0 && Stripped(p) && NoNewline(p)
    ensures Stripped(w + " " + p) && NoNewline(w + " " + p)
    ensures FieldsOf(w + " " + p, w, p)
  {
    var t := w + " " + p;
    assert t[0] == w[0] && t[|t| - 1] == p[|p| - 1];
    assert t[..|w|] == w && t[|w|..|t| - |p|] == " " && t[|t| - |p|..] == p;
    forall k | 0 <= k < |t|
      ensures t[k] != '\n'
    {
      if k < |w| {
        assert t[k] == w[k];
      } else if k > |w| {
        assert t[k] == p[k - |w| - 1];
      }
    }
  }

  /** A line written by `set_custom_words` reads back as its pair. */
  lemma EncodedLineDecodes(w: string, p: string)
    requires |w| > 0 && NoSpace(w) && |p| > 0 && Stripped(p) && NoNewline(p)
    ensures NoNewline(w + " " + p)
    ensures DecodeLine(w + " " + p) == Pair(w, p)
  {
    EncodedLineShape(w, p);
    StripStripped(w + " " + p);
    FieldsDecode(w + " " + p, w, p);
  }

  /** Two maps with non-empty sets and the same pairs are equal. */
  lemma SamePairsSameMap(a: Pronunciations, b: Pronunciations)
    requires forall w :: w in a ==> a[w] != {}
    requires forall w :: w in b ==> b[w] != {}
    requires forall w, p :: (w in a && p in a[w]) <==> (w in b && p in b[w])
    ensures a == b
  {
    forall w | w in a
      ensures w in b
    {
      var p :| p in a[w];
    }
    forall w | w in b
      ensures w in a
    {
      var p :| p in b[w];
    }
    forall w | w in a
      ensures a[w] == b[w]
    {
      assert forall p :: p in a[w] <==> p in b[w];
    }
    assert a.Keys == b.Keys;
  }

  /** The decoded lines that carry exactly the pairs `e`, in order. */
  function PairLines(e: seq<(string, string)>): (ls: seq<Line>)
    ensures |ls| == |e|
    ensures forall w, p :: Pair(w, p) in ls <==> (w, p) in e
    ensures forall i :: 0 <= i < |ls| ==> ls[i].Pair?
  {
    if |e| == 0 then [] else [Pair(e[0].0, e[0].1)] + PairLines(e[1..])
  }

  /** The lines written for a well-formed map decode to its pairs, in order. */
  lemma EncodedLinesDecode(m: Pronunciations)
    requires WellFormed(m)
    ensures forall i :: 0 <= i < |EncodeLines(m)| ==> NoNewline(EncodeLines(m)[i])
    ensures DecodeEach(EncodeLines(m)) == PairLines(Entries(m))
  {
    assert DecodeEach(EncodeLines(m)) == PairLines(Entries(m)) by {
      var a := DecodeEach(EncodeLines(m));
      var b := PairLines(Entries(m));
      DecodedLinesAt(m, a, b);
    }
  }

  /** Each decoded line written for a well-formed map is the pair of its entry. */
  lemma DecodedLinesAt(m: Pronunciations, a: seq<Line>, b: seq<Line>)
    requires WellFormed(m)
    requires a == DecodeEach(EncodeLines(m)) && b == PairLines(Entries(m))
    ensures |a| == |b| && forall i :: 0 <= i < |a| ==> a[i] == b[i]
  {
    forall i | 0 <= i < |a|
      ensures a[i] == b[i]
    {
      PairLinesAt(Entries(m), i);
    }
  }

  /** The empty piece after the last line break decodes as blank. */
  lemma DecodeEachFinalPiece(lines: seq<string>)
    ensures DecodeEach(lines + [""]) == DecodeEach(lines) + [Blank]
  {
    StripStripped("");
  }

  lemma {:induction false} PairLinesAt(e: seq<(string, string)>, i: int)
    requires 0 <= i < |e|
    ensures PairLines(e)[i] == Pair(e[i].0, e[i].1)
  {
    if i > 0 {
      PairLinesAt(e[1..], i - 1);
    }
  }

  /** Accumulating the pairs of a well-formed map, then a blank line, gives the map back. */
  lemma AccumulateEntries(m: Pronunciations)
    requires forall w :: w in m ==> m[w] != {}
    ensures Accumulate(PairLines(Entries(m)) + [Blank]) == Ok(m)
  {
    var ls := PairLines(Entries(m)) + [Blank];
    assert AllWellFormed(ls);
    var d := Accumulate(ls).value;
    assert forall w, p :: Pair(w, p) in ls <==> Pair(w, p) in PairLines(Entries(m));
    SamePairsSameMap(d, m);
  }

  /**
   * Decoding what `set_custom_words` writes gives the dictionary back, for
   * non-empty words without whitespace, each with at least one non-empty,
   * stripped, single-line pronunciation.
   */
  lemma RoundTrip(m: Pronunciations)
    requires WellFormed(m)
    ensures Decode(Encode(m)) == Ok(m)
  {
  }
}

=== FILE: http.dfy ===
/**
 * An HTTP exchange reduced to what the client looks at: the status code and
 * the body text of the response.
 */
module Http {

  /** A response: status code and body text. */
  datatype Response = Response(status: int, body: string)

  /** `raise_for_status()` raises exactly for 4xx and 5xx statuses. */
  predicate RaisesForStatus(r: Response) {
    r.status >= 400
  }
}

=== FILE: ordering.dfy ===
/**
 * Python's ordering of `str` values (lexicographic by code point) and the two
 * uses of `sorted` in the client: sorting a list of sentences, which may hold
 * duplicates, and sorting the keys of a dict or the members of a set, which
 * cannot.
 */
module Ordering {

  /** `a <= b` on Python strings: lexicographic, comparing code points. */
  predicate LessEq(a: string, b: string) {
    |a| == 0 || (|b| > 0 && (a[0] < b[0] || (a[0] == b[0] && LessEq(a[1..], b[1..]))))
  }

  /** `a < b` on Python strings. */
  predicate Less(a: string, b: string) {
    LessEq(a, b) && a != b
  }

  lemma {:induction false} LessEqReflexive(a: string)
    ensures LessEq(a, a)
  {
    if |a| > 0 {
      LessEqReflexive(a[1..]);
    }
  }

  lemma {:induction false} LessEqAntisymmetric(a: string, b: string)
    requires LessEq(a, b) && LessEq(b, a)
    ensures a == b
  {
    if |a| > 0 && |b| > 0 {
      LessEqAntisymmetric(a[1..], b[1..]);
      assert a == [a[0]] + a[1..] && b == [b[0]] + b[1..];
    }
  }

  lemma {:induction false} LessEqTransitive(a: string, b: string, c: string)
    requires LessEq(a, b) && LessEq(b, c)
    ensures LessEq(a, c)
  {
    if |a| > 0 && a[0] == b[0] && b[0] == c[0] {
      LessEqTransitive(a[1..], b[1..], c[1..]);
    }
  }

  lemma {:induction false} LessEqTotal(a: string, b: string)
    ensures LessEq(a, b) || LessEq(b, a)
  {
    if |a| > 0 && |b| > 0 && a[0] == b[0] {
      LessEqTotal(a[1..], b[1..]);
    }
  }

  /** Ascending order, as `sorted` returns it. */
  predicate Sorted(s: seq<string>) {
    forall i, j :: 0 <= i < j < |s| ==> LessEq(s[i], s[j])
  }

  /** Ascending order without repeats, as `sorted` returns for keys or set members. */
  predicate StrictlySorted(s: seq<string>) {
    forall i, j :: 0 <= i < j < |s| ==> Less(s[i], s[j])
  }

  /** Inserts `x` into the sorted `s` before the first element not below it. */
  function Insert(x: string, s: seq<string>): (r: seq<string>)
    requires Sorted(s)
    ensures Sorted(r)
    ensures multiset(r) == multiset(s) + multiset{x}
  {
    if |s| == 0 then [x]
    else if LessEq(x, s[0]) then
      LessEqAll(x, s);
      [x] + s
    else
      LessEqTotal(x, s[0]);
      var t := Insert(x, s[1..]);
      assert s == [s[0]] + s[1..];
      forall k | 0 <= k < |t|
        ensures LessEq(s[0], t[k])
      {
        assert t[k] in multiset(t);
      }
      [s[0]] + t
  }

  /** In a sorted sequence, an element below the first is below all. */
  lemma LessEqAll(x: string, s: seq<string>)
    requires Sorted(s) && |s| > 0 && LessEq(x, s[0])
    ensures forall k :: 0 <= k < |s| ==> LessEq(x, s[k])
  {
    forall k | 0 <= k < |s|
      ensures LessEq(x, s[k])
    {
      if k > 0 {
        LessEqTransitive(x, s[0], s[k]);
      }
    }
  }

  /** `sorted(s)` for a list of strings: the ascending permutation of `s`. */
  function Sort(s: seq<string>): (r: seq<string>)
    ensures Sorted(r)
    ensures multiset(r) == multiset(s)
  {
    if |s| == 0 then []
    else
      assert s == [s[0]] + s[1..];
      Insert(s[0], Sort(s[1..]))
  }

  /** The first element of a non-empty sorted sequence is below every element. */
  lemma HeadIsLeast(a: seq<string>, x: string)
    requires Sorted(a) && |a| > 0 && x in multiset(a)
    ensures LessEq(a[0], x)
  {
    var i :| 0 <= i < |a| && a[i] == x;
    if i == 0 {
      LessEqReflexive(x);
    }
  }

  /** Two sorted permutations of the same strings are equal: `Sort` is the only one. */
  lemma {:induction false} SortedUnique(a: seq<string>, b: seq<string>)
    requires Sorted(a) && Sorted(b) && multiset(a) == multiset(b)
    ensures a == b
  {
    assert |a| == |multiset(a)| == |multiset(b)| == |b|;
    if |a| > 0 {
      HeadIsLeast(a, b[0]);
      HeadIsLeast(b, a[0]);
      LessEqAntisymmetric(a[0], b[0]);
      assert a == [a[0]] + a[1..] && b == [b[0]] + b[1..];
      assert multiset(a[1..]) == multiset(b[1..]) by {
        assert multiset(a) == multiset{a[0]} + multiset(a[1..]);
        assert multiset(b) == multiset{b[0]} + multiset(b[1..]);
        forall z
          ensures multiset(a[1..])[z] == multiset(b[1..])[z]
        {
          assert multiset(a)[z] == multiset{a[0]}[z] + multiset(a[1..])[z];
          assert multiset(b)[z] == multiset{b[0]}[z] + multiset(b[1..])[z];
        }
      }
      SortedUnique(a[1..], b[1..]);
    }
  }

  /** Every finite non-empty set of strings has a least member. */
  lemma LeastExists(s: set<string>)
    requires s != {}
    ensures exists m :: m in s && forall y :: y in s ==> LessEq(m, y)
  {
    var x :| x in s;
    if s == {x} {
      LessEqReflexive(x);
    } else {
      LeastExists(s - {x});
      var m :| m in s - {x} && forall y :: y in s - {x} ==> LessEq(m, y);
      LessEqTotal(m, x);
      if LessEq(m, x) {
        assert forall y :: y in s ==> LessEq(m, y);
      } else {
        forall y | y in s
          ensures LessEq(x, y)
        {
          if y == x {
            LessEqReflexive(x);
          } else {
            LessEqTransitive(x, m, y);
          }
        }
      }
    }
  }

  /** The least member of a non-empty set of strings, `min(s)`. */
  function Least(s: set<string>): (m: string)
    requires s != {}
    ensures m in s
    ensures forall y :: y in s ==> LessEq(m, y)
  {
    LeastExists(s);
    var m :| m in s && forall y :: y in s ==> LessEq(m, y);
    assert forall m' :: m' in s && (forall y :: y in s ==> LessEq(m', y)) ==> m' == m by {
      forall m' | m' in s && (forall y :: y in s ==> LessEq(m', y))
        ensures m' == m
      {
        LessEqAntisymmetric(m, m');
      }
    }
    m
  }

  /** `sorted(s)` for the keys of a dict or the members of a set. */
  function SortSet(s: set<string>): (r: seq<string>)
    ensures StrictlySorted(r)
    ensures |r| == |s|
    ensures forall x :: x in r <==> x in s
    decreases |s|
  {
    if s == {} then []
    else
      var m := Least(s);
      var t := SortSet(s - {m});
      forall k | 0 <= k < |t|
        ensures Less(m, t[k])
      {
        assert t[k] in t;
      }
      [m] + t
  }
}

=== FILE: sentence_groups.dfy ===
/**
 * `get_sentences`: the parsed sentences file grouped by intent. Every
 * section is an intent; every entry of a section is a sentence (a key
 * without a value) or a rule (`key = value`).
 *
 * Two versions are modelled next to the intended grouping: the loop as
 * written, which unpacks each key string into two names, and the loop with
 * entries unpacked as (key, value) pairs, which appends the missing value
 * of a sentence instead of its text.
 */
module SentenceGroups {
  import opened Wrappers

  /** One entry of a section: a key and, for a rule, its value. */
  datatype Entry = Entry(key: string, value: Option<string>)

  /** One section of the parsed file, its entries in file order. */
  datatype IniSection = IniSection(name: string, entries: seq<Entry>)

  /** The text an entry stands for: the sentence itself, or `key = value` for a rule. */
  function Render(e: Entry): string {
    match e.value
    case None => e.key
    case Some(v) => e.key + " = " + v
  }

  /**
   * Appends `items` to the list of `name`, creating the list on the first
   * append as a `defaultdict(list)` does; no append leaves the map as it is.
   */
  function AppendAll<T>(m: map<string, seq<T>>, name: string, items: seq<T>): (r: map<string, seq<T>>)
    ensures |items| == 0 ==> r == m
    ensures r.Keys == if |items| == 0 then m.Keys else m.Keys + {name}
    ensures forall n :: n in m && n != name ==> r[n] == m[n]
    ensures |items| > 0 ==> r[name] == (if name in m then m[name] else []) + items
  {
    if |items| == 0 then m else m[name := (if name in m then m[name] else []) + items]
  }

  /** The rendering of each entry of a section, in order. */
  function RenderAll<T>(entries: seq<Entry>, render: Entry -> T): (r: seq<T>)
    ensures |r| == |entries|
    ensures forall i :: 0 <= i < |r| ==> r[i] == render(entries[i])
  {
    seq(|entries|, i requires 0 <= i < |entries| => render(entries[i]))
  }

  /** The loop over sections and entries, appending `render(entry)` to the list of its section. */
  function GroupBy<T>(sections: seq<IniSection>, render: Entry -> T): map<string, seq<T>>
  {
    if |sections| == 0 then map[]
    else
      var last := sections[|sections| - 1];
      AppendAll(GroupBy(sections[..|sections| - 1], render), last.name, RenderAll(last.entries, render))
  }

  /** Reference: the renderings of all entries of all sections named `name`, in file order. */
  function Collected<T>(sections: seq<IniSection>, name: string, render: Entry -> T): seq<T>
  {
    if |sections| == 0 then []
    else
      (if sections[0].name == name then RenderAll(sections[0].entries, render) else [])
        + Collected(sections[1..], name, render)
  }

  /** `Collected` over a sequence with one more section at its end. */
  lemma {:induction false} CollectedSnoc<T>(sections: seq<IniSection>, s: IniSection, name: string, render: Entry -> T)
    ensures Collected(sections + [s], name, render)
      == Collected(sections, name, render) + (if s.name == name then RenderAll(s.entries, render) else [])
    decreases |sections|
  {
    var all := sections + [s];
    if |sections| == 0 {
      assert all[1..] == [];
    } else {
      assert all[1..] == sections[1..] + [s];
      CollectedSnoc(sections[1..], s, name, render);
    }
  }

  /**
   * The grouping loop agrees with the reference: an intent gets a list
   * exactly when its sections hold at least one entry, and the list holds
   * the renderings of those entries in file order.
   */
  lemma {:induction false} GroupByCollects<T>(sections: seq<IniSection>, render: Entry -> T)
    ensures forall n :: n in GroupBy(sections, render) <==> |Collected(sections, n, render)| > 0
    ensures forall n :: n in GroupBy(sections, render) ==> GroupBy(sections, render)[n] == Collected(sections, n, render)
    decreases |sections|
  {
    if |sections| > 0 {
      var init := sections[..|sections| - 1];
      var last := sections[|sections| - 1];
      assert sections == init + [last];
      GroupByCollects(init, render);
      forall n
        ensures Collected(sections, n, render)
          == Collected(init, n, render) + (if last.name == n then RenderAll(last.entries, render) else [])
      {
        CollectedSnoc(init, last, n, render);
      }
    }
  }

  /** `get_sentences` as intended: each entry rendered as its sentence or rule text. */
  function Group(sections: seq<IniSection>): (r: map<string, seq<string>>)
    ensures forall n :: n in r <==> |Collected(sections, n, Render)| > 0
    ensures forall n :: n in r ==> r[n] == Collected(sections, n, Render)
  {
    GroupByCollects(sections, Render);
    GroupBy(sections, Render)
  }

  /**
   * With one section per intent, each intent's list is its section's
   * entries in order: sentences as themselves, rules as `key = value`.
   */
  lemma GroupDistinct(sections: seq<IniSection>, k: nat)
    requires forall i, j :: 0 <= i < j < |sections| ==> sections[i].name != sections[j].name
    requires k < |sections| && |sections[k].entries| > 0
    ensures sections[k].name in Group(sections)
    ensures |Group(sections)[sections[k].name]| == |sections[k].entries|
    ensures forall i :: 0 <= i < |sections[k].entries| ==>
              Group(sections)[sections[k].name][i] == Render(sections[k].entries[i])
  {
    CollectedOnly(sections, k, Render);
  }

  /** Where only section `k` carries a name, the reference collects exactly its entries. */
  lemma {:induction false} CollectedOnly<T>(sections: seq<IniSection>, k: nat, render: Entry -> T)
    requires k < |sections|
    requires forall i :: 0 <= i < |sections| && i != k ==> sections[i].name != sections[k].name
    ensures Collected(sections, sections[k].name, render) == RenderAll(sections[k].entries, render)
    decreases |sections|
  {
    var name := sections[k].name;
    if k == 0 {
      CollectedNone(sections[1..], name, render);
    } else {
      assert sections[1..][k - 1] == sections[k];
      CollectedOnly(sections[1..], k - 1, render);
    }
  }

  /** No section carries the name: nothing is collected. */
  lemma {:induction false} CollectedNone<T>(sections: seq<IniSection>, name: string, render: Entry -> T)
    requires forall i :: 0 <= i < |sections| ==> sections[i].name != name
    ensures Collected(sections, name, render) == []
    decreases |sections|
  {
    if |sections| > 0 {
      CollectedNone(sections[1..], name, render);
    }
  }

  /** An error raised while grouping: a key that does not unpack into two names. */
  datatype UnpackError = UnpackError(key: string)

  /**
   * The loop as written iterates a section, which yields its keys only, and
   * unpacks each key string into `key, value`: that succeeds only for keys of
   * exactly two characters, each taken as a one-character string, and such
   * a value is never `None`, so the entry is appended as a rule.
   */
  function UnpackKey(k: string): (r: Result<string, UnpackError>)
    ensures r.Ok? <==> |k| == 2
    ensures r.Ok? ==> r.value == [k[0]] + " = " + [k[1]]
    ensures r.Err? ==> r.error == UnpackError(k)
  {
    if |k| == 2 then Ok([k[0]] + " = " + [k[1]]) else Err(UnpackError(k))
  }

  /** The entries of one section as the loop as written unpacks them; the first failure ends it. */
  function UnpackAll(entries: seq<Entry>): (r: Result<seq<string>, UnpackError>)
    ensures r.Ok? <==> forall i :: 0 <= i < |entries| ==> |entries[i].key| == 2
    ensures r.Ok? ==> |r.value| == |entries|
    ensures r.Err? ==> exists i :: 0 <= i < |entries| && |entries[i].key| != 2 && r.error == UnpackError(entries[i].key)
  {
    if |entries| == 0 then Ok([])
    else
      match UnpackKey(entries[0].key)
      case Err(e) => Err(e)
      case Ok(first) =>
        match UnpackAll(entries[1..])
        case Err(e) => 
          assert forall i :: 1 <= i < |entries| ==> entries[1..][i - 1] == entries[i];
          Err(e)
        case Ok(rest) => 
          assert forall i :: 1 <= i < |entries| ==> entries[1..][i - 1] == entries[i];
          Ok([first] + rest)
  }

  /** `get_sentences` as written: succeeds only when every key has two characters. */
  function GroupAsWritten(sections: seq<IniSection>): (r: Result<map<string, seq<string>>, UnpackError>)
    ensures r.Ok? <==> forall k, i :: 0 <= k < |sections| && 0 <= i < |sections[k].entries| ==> |sections[k].entries[i].key| == 2
    ensures r.Ok? ==> r.value.Keys == set k | 0 <= k < |sections| && |sections[k].entries| > 0 :: sections[k].name
  {
    if |sections| == 0 then Ok(map[])
    else
      var init := sections[..|sections| - 1];
      var last := sections[|sections| - 1];
      match GroupAsWritten(init)
      case Err(e) => Err(e)
      case Ok(m) =>
        match UnpackAll(last.entries)
        case Err(e) => Err(e)
        case Ok(items) => Ok(AppendAll(m, last.name, items))
  }

  /** A section holding the sentence "what time is it": the loop as written fails on it, the intended one keeps it. */
  lemma GroupAsWrittenFails()
    ensures GroupAsWritten([IniSection("GetTime", [Entry("what time is it", None)])]).Err?
    ensures Group([IniSection("GetTime", [Entry("what time is it", None)])]) == map["GetTime" := ["what time is it"]]
  {
    var sections := [IniSection("GetTime", [Entry("what time is it", None)])];
    var r := Group(sections);
    assert RenderAll(sections[0].entries, Render) == ["what time is it"];
    forall n
      ensures Collected(sections, n, Render) == if n == "GetTime" then ["what time is it"] else []
    {
      assert sections[1..] == [];
    }
    assert r.Keys == {"GetTime"};
  }

  /**
   * The loop with entries unpacked as pairs, as written: a sentence appends
   * its missing value (`None`) and a rule appends `key = value`.
   */
  function AppendedValue(e: Entry): Option<string> {
    match e.value
    case None => None
    case Some(v) => Some(e.key + " = " + v)
  }

  /** `get_sentences` with pairs unpacked, as written: sentence texts are lost. */
  function GroupValuesAsWritten(sections: seq<IniSection>): (r: map<string, seq<Option<string>>>)
    ensures forall n :: n in r <==> |Collected(sections, n, AppendedValue)| > 0
    ensures forall n :: n in r ==> r[n] == Collected(sections, n, AppendedValue)
  {
    GroupByCollects(sections, AppendedValue);
    GroupBy(sections, AppendedValue)
  }

  /** Every sentence is appended as `None`; the intended grouping appends its text. */
  lemma GroupValuesAsWrittenLosesSentences(sections: seq<IniSection>, k: nat)
    requires forall i, j :: 0 <= i < j < |sections| ==> sections[i].name != sections[j].name
    requires k < |sections| && |sections[k].entries| > 0
    ensures sections[k].name in GroupValuesAsWritten(sections)
    ensures GroupValuesAsWritten(sections)[sections[k].name] == RenderAll(sections[k].entries, AppendedValue)
    ensures forall i :: 0 <= i < |sections[k].entries| && sections[k].entries[i].value.None? ==>
              RenderAll(sections[k].entries, AppendedValue)[i] == None
  {
    CollectedOnly(sections, k, AppendedValue);
  }
}

=== FILE: sentences.dfy ===
/**
 * The sentences file (`sentences.ini`) as `set_sentences` writes it: for each
 * intent, in sorted order, a `[intent]` header line, the intent's sentences in
 * sorted order, and a blank line. A sentence starting with '[' gets a '\'
 * prefix so that it is not read as a header; the test for '[' is made before
 * the sentence is stripped (`Encode`). The `Corrected` functions strip first,
 * and the lemmas relate the two: they agree exactly on the grammars without
 * a sentence of whitespace followed by '['.
 */
module Sentences {
  import opened Wrappers
  import opened Strings
  import opened Ordering

  /** Sentences grouped by intent name. */
  type Grammar = map<string, seq<string>>

  /** One `[name]` section of the file and the lines under it. */
  datatype Section = Section(name: string, lines: seq<string>)

  /**
   * The line `set_sentences` writes for one sentence, as written: the '['
   * test is made on the unstripped sentence, so a sentence with leading
   * whitespace before its '[' is written unescaped.
   */
  function EmitSentenceAsWritten(s: string): (r: string)
    ensures Stripped(r)
    ensures StartsWith(s, '[') ==> r == "\\" + TrimEnd(s)
    ensures !StartsWith(s, '[') ==> r == Strip(s)
  {
    var escaped := if StartsWith(s, '[') then "\\" + s else s;
    StripEscaped(s);
    Strip(escaped)
  }

  /** The line for one sentence with the strip made before the '[' test: never a header. */
  function EmitSentence(s: string): (r: string)
    ensures Stripped(r)
    ensures !StartsWith(r, '[')
    ensures StartsWith(Strip(s), '[') ==> r == "\\" + Strip(s)
    ensures !StartsWith(Strip(s), '[') ==> r == Strip(s)
  {
    var t := Strip(s);
    if StartsWith(t, '[') then
      assert ("\\" + t)[|t|] == t[|t| - 1];
      "\\" + t
    else t
  }

  /**
   * A sentence the two versions write differently: whitespace comes first,
   * so the '[' test misses the '[' that starts its stripped text.
   */
  predicate HiddenBracket(s: string) {
    |s| > 0 && IsSpace(s[0]) && StartsWith(Strip(s), '[')
  }

  /** The two versions write the same line exactly for the sentences without a hidden '['. */
  lemma EmitSentenceAgrees(s: string)
    ensures EmitSentenceAsWritten(s) == EmitSentence(s) <==> !HiddenBracket(s)
  {
    if |s| == 0 {
      StripStripped(s);
    } else if !IsSpace(s[0]) {
      StripNonSpaceStart(s);
      assert Strip(s)[0] == s[0];
    } else if StartsWith(Strip(s), '[') {
      assert |EmitSentence(s)| == |Strip(s)| + 1;
    }
  }

  /**
   * A stripped sentence starting with '[' behind one whitespace character
   * (" [b]", say) is written unescaped, and so as a header line when it ends
   * with ']'; with the strip made first it is escaped.
   */
  lemma EmitSentenceAsWrittenUnescaped(c: char, t: string)
    requires IsSpace(c) && Stripped(t) && StartsWith(t, '[')
    ensures EmitSentenceAsWritten([c] + t) == t
    ensures |t| >= 2 && EndsWith(t, ']') ==> IsHeader(EmitSentenceAsWritten([c] + t))
    ensures EmitSentence([c] + t) == "\\" + t
  {
    StripLeadingSpace(c, t);
  }

  /** Stripping a stripped string behind one whitespace character gives it back. */
  lemma StripLeadingSpace(c: char, t: string)
    requires IsSpace(c) && Stripped(t)
    ensures Strip([c] + t) == t
  {
    StripSpaceStart(c, t);
    StripStripped(t);
  }

  /** Stripping a sentence behind a '\' prefix only trims its end. */
  lemma StripEscaped(s: string)
    ensures Strip("\\" + s) == "\\" + TrimEnd(s)
  {
    StripNonSpaceStart("\\" + s);
    TrimEndCons('\\', s);
  }

  /** The lines for a sequence of sentences, one per sentence, in order, each written by `emit`. */
  function EmitAll(sentences: seq<string>, emit: string -> string): (r: seq<string>)
    ensures |r| == |sentences|
    ensures forall i :: 0 <= i < |r| ==> r[i] == emit(sentences[i])
  {
    seq(|sentences|, i requires 0 <= i < |sentences| => emit(sentences[i]))
  }

  /** The sections of `g` for the given intent names, each with its sentences sorted and written by `emit`. */
  function SectionsFor(names: seq<string>, g: Grammar, emit: string -> string): (r: seq<Section>)
    requires forall i :: 0 <= i < |names| ==> names[i] in g
    ensures |r| == |names|
    ensures forall k :: 0 <= k < |r| ==> r[k] == Section(names[k], EmitAll(Sort(g[names[k]]), emit))
  {
    seq(|names|, k requires 0 <= k < |names| => Section(names[k], EmitAll(Sort(g[names[k]]), emit)))
  }

  /**
   * The sections `set_sentences` writes when each sentence is written by
   * `emit`: one per intent, in strictly ascending order of intent name,
   * each holding the intent's sentences sorted and written.
   */
  function SectionsWith(g: Grammar, emit: string -> string): (r: seq<Section>)
    ensures |r| == |g|
    ensures forall i, j :: 0 <= i < j < |r| ==> Less(r[i].name, r[j].name)
    ensures forall k :: 0 <= k < |r| ==> r[k].name in g && r[k].lines == EmitAll(Sort(g[r[k].name]), emit)
  {
    SectionsFor(SortSet(g.Keys), g, emit)
  }

  /** Every intent of the grammar has its section. */
  lemma SectionsCover(g: Grammar, emit: string -> string, n: string)
    requires n in g
    ensures exists k :: 0 <= k < |SectionsWith(g, emit)| && SectionsWith(g, emit)[k].name == n
  {
    var names := SortSet(g.Keys);
    var k :| 0 <= k < |names| && names[k] == n;
    assert SectionsWith(g, emit)[k].name == n;
  }

  /** The sections `set_sentences` writes, as written. */
  function Sections(g: Grammar): seq<Section> {
    SectionsWith(g, EmitSentenceAsWritten)
  }

  /** The sections written with the strip made before the '[' test. */
  function CorrectedSections(g: Grammar): seq<Section> {
    SectionsWith(g, EmitSentence)
  }

  /** The header line of a section. */
  function Header(name: string): string {
    "[" + name + "]"
  }

  /** The lines of `sections`: each header, its lines, then a blank line. */
  function Layout(sections: seq<Section>): seq<string> {
    if |sections| == 0 then []
    else [Header(sections[0].name)] + sections[0].lines + [""] + Layout(sections[1..])
  }

  /** `set_sentences`, as written: the strings it prints, one `print` each. */
  function EncodeLines(g: Grammar): seq<string> {
    Layout(Sections(g))
  }

  /** `set_sentences`, as written: the request body; empty exactly when there are no intents. */
  function Encode(g: Grammar): (text: string)
    ensures text == "" <==> |g| == 0
  {
    var lines := EncodeLines(g);
    assert |g| > 0 ==> lines[0] == Header(Sections(g)[0].name);
    JoinLines(lines)
  }

  /** The strings printed with the strip made before the '[' test. */
  function CorrectedEncodeLines(g: Grammar): seq<string> {
    Layout(CorrectedSections(g))
  }

  /** The request body with the strip made before the '[' test. */
  function CorrectedEncode(g: Grammar): string {
    JoinLines(CorrectedEncodeLines(g))
  }

  /** A line the reader takes as a section header: '[' ... ']'. */
  predicate IsHeader(line: string) {
    |line| >= 2 && line[0] == '[' && line[|line| - 1] == ']'
  }

  /** The number of leading lines of `lines` that are not headers. */
  function BodyLength(lines: seq<string>): (n: nat)
    ensures n <= |lines|
    ensures forall i :: 0 <= i < n ==> !IsHeader(lines[i])
    ensures n == |lines| || IsHeader(lines[n])
  {
    if |lines| == 0 || IsHeader(lines[0]) then 0 else 1 + BodyLength(lines[1..])
  }

  /**
   * Reads lines laid out as by `Layout` back into sections: every section
   * starts at a header and runs to the next one, and must end with a blank
   * line, which is dropped. Text before the first header is an error.
   */
  function ReadSections(lines: seq<string>): Option<seq<Section>>
    decreases |lines|
  {
    if |lines| == 0 then Some([])
    else if !IsHeader(lines[0]) then None
    else
      var n := BodyLength(lines[1..]);
      var body := lines[1..1 + n];
      if n == 0 || body[n - 1] != "" then None
      else
        match ReadSections(lines[1 + n..])
        case None => None
        case Some(rest) =>
          var header := lines[0];
          Some([Section(header[1..|header| - 1], body[..n - 1])] + rest)
  }

  /** No line of any section looks like a header. */
  predicate NoHeaderLines(sections: seq<Section>) {
    forall k, i :: 0 <= k < |sections| && 0 <= i < |sections[k].lines| ==> !StartsWith(sections[k].lines[i], '[')
  }

  /** The body of a section, with its blank line, is all non-header lines before the next header. */
  lemma {:induction false} BodyLengthOfSection(lines: seq<string>, rest: seq<string>)
    requires forall i :: 0 <= i < |lines| ==> !StartsWith(lines[i], '[')
    requires |rest| == 0 || IsHeader(rest[0])
    ensures BodyLength(lines + [""] + rest) == |lines| + 1
    decreases |lines|
  {
    var all := lines + [""] + rest;
    if |lines| == 0 {
      assert all == [""] + rest;
      assert all[1..] == rest;
    } else {
      assert all[1..] == lines[1..] + [""] + rest;
      BodyLengthOfSection(lines[1..], rest);
    }
  }

  /** One step of the reader, on a header followed by `n` body lines, the last blank. */
  lemma ReadSectionsStep(lines: seq<string>, n: nat)
    requires 0 < n < |lines| && IsHeader(lines[0])
    requires BodyLength(lines[1..]) == n && lines[n] == ""
    ensures ReadSections(lines)
      == if ReadSections(lines[1 + n..]).Some? then
           Some([Section(lines[0][1..|lines[0]| - 1], lines[1..n])] + ReadSections(lines[1 + n..]).value)
         else None
  {
    assert lines[1..1 + n][..n - 1] == lines[1..n];
  }

  /** The header of a name is read back as that name. */
  lemma HeaderName(name: string)
    ensures IsHeader(Header(name))
    ensures Header(name)[1..|Header(name)| - 1] == name
  {
  }

  /** The parts of a header, body lines, blank line and following lines, as slices of their layout. */
  lemma LaidOutSlices(header: string, body: seq<string>, rest: seq<string>)
    ensures var lines := [header] + body + [""] + rest;
      && lines[0] == header
      && lines[1..] == body + [""] + rest
      && lines[1..|body| + 1] == body
      && lines[|body| + 1] == ""
      && lines[|body| + 2..] == rest
  {
  }

  /** Reading one laid-out section in front of further sections. */
  lemma ReadSection(s: Section, rest: seq<string>)
    requires forall i :: 0 <= i < |s.lines| ==> !StartsWith(s.lines[i], '[')
    requires |rest| == 0 || IsHeader(rest[0])
    ensures ReadSections([Header(s.name)] + s.lines + [""] + rest)
      == if ReadSections(rest).Some? then Some([s] + ReadSections(rest).value) else None
  {
    var lines := [Header(s.name)] + s.lines + [""] + rest;
    LaidOutSlices(Header(s.name), s.lines, rest);
    HeaderName(s.name);
    BodyLengthOfSection(s.lines, rest);
    ReadSectionsStep(lines, |s.lines| + 1);
  }

  /**
   * Reading the layout of sections whose lines never start with '[' gives
   * the sections back: the layout is unambiguous.
   */
  lemma {:induction false} LayoutRoundTrip(sections: seq<Section>)
    requires NoHeaderLines(sections)
    ensures ReadSections(Layout(sections)) == Some(sections)
  {
    if |sections| > 0 {
      var s := sections[0];
      var tail := sections[1..];
      var rest := Layout(tail);
      assert NoHeaderLines(tail) by {
        forall k, i | 0 <= k < |tail| && 0 <= i < |tail[k].lines|
          ensures !StartsWith(tail[k].lines[i], '[')
        {
          assert tail[k] == sections[k + 1];
        }
      }
      LayoutRoundTrip(tail);
      assert forall i :: 0 <= i < |s.lines| ==> !StartsWith(s.lines[i], '[');
      ReadSection(s, rest);
      assert Layout(sections) == [Header(s.name)] + s.lines + [""] + rest;
      assert sections == [s] + tail;
    }
  }

  /** With the strip made first, the printed strings read back as the sections written. */
  lemma CorrectedLinesRoundTrip(g: Grammar)
    ensures ReadSections(CorrectedEncodeLines(g)) == Some(CorrectedSections(g))
  {
    var secs := CorrectedSections(g);
    assert NoHeaderLines(secs) by {
      forall k, i | 0 <= k < |secs| && 0 <= i < |secs[k].lines|
        ensures !StartsWith(secs[k].lines[i], '[')
      {
        var ss := Sort(g[secs[k].name]);
        assert secs[k].lines[i] == EmitSentence(ss[i]);
      }
    }
    LayoutRoundTrip(secs);
  }

  /**
   * Reads a text as printed lines: split at '\n', the text must end with a
   * line break, and the lines must be laid out as sections.
   */
  function ReadText(text: string): Option<seq<Section>> {
    var pieces := SplitLines(text);
    if pieces[|pieces| - 1] == "" then ReadSections(pieces[..|pieces| - 1]) else None
  }

  /** Reading the text of printed strings without line breaks reads those strings. */
  lemma ReadPrinted(lines: seq<string>)
    requires forall i :: 0 <= i < |lines| ==> NoNewline(lines[i])
    ensures ReadText(JoinLines(lines)) == ReadSections(lines)
  {
    SplitJoinLines(lines);
    assert (lines + [""])[..|lines|] == lines;
  }

  /** No intent name and no sentence holds a line break. */
  predicate SingleLine(g: Grammar) {
    forall n :: n in g ==> NoNewline(n) && forall i :: 0 <= i < |g[n]| ==> NoNewline(g[n][i])
  }

  /** No sentence of the grammar has a hidden '['. */
  predicate NoHiddenBracket(g: Grammar) {
    forall n, i :: n in g && 0 <= i < |g[n]| ==> !HiddenBracket(g[n][i])
  }

  /** Both ways of writing a sentence keep it on one line. */
  lemma EmitSingleLine(s: string)
    requires NoNewline(s)
    ensures NoNewline(EmitSentence(s)) && NoNewline(EmitSentenceAsWritten(s))
  {
    var t := Strip(s);
    assert NoNewline(t);
    assert NoNewline("\\" + t);
    if StartsWith(s, '[') {
      var e := TrimEnd(s);
      assert forall i :: 0 <= i < |e| ==> e[i] == s[i];
      assert NoNewline("\\" + e);
    }
  }

  /** The layout of one-line names and lines has no line break in any printed string. */
  lemma {:induction false} LayoutSingleLine(sections: seq<Section>)
    requires forall k :: 0 <= k < |sections| ==> NoNewline(sections[k].name)
    requires forall k, i :: 0 <= k < |sections| && 0 <= i < |sections[k].lines| ==> NoNewline(sections[k].lines[i])
    ensures forall i :: 0 <= i < |Layout(sections)| ==> NoNewline(Layout(sections)[i])
  {
    if |sections| > 0 {
      var s := sections[0];
      LayoutSingleLine(sections[1..]);
      assert NoNewline(Header(s.name));
      var front := [Header(s.name)] + s.lines + [""];
      assert forall i :: 0 <= i < |front| ==> NoNewline(front[i]);
    }
  }

  /** For a grammar without line breaks, every string printed, either way, is one line. */
  lemma SectionsSingleLine(g: Grammar, emit: string -> string)
    requires SingleLine(g)
    requires forall s :: NoNewline(s) ==> NoNewline(emit(s))
    ensures forall i :: 0 <= i < |Layout(SectionsWith(g, emit))| ==> NoNewline(Layout(SectionsWith(g, emit))[i])
  {
    var secs := SectionsWith(g, emit);
    forall k, i | 0 <= k < |secs| && 0 <= i < |secs[k].lines|
      ensures NoNewline(secs[k].lines[i])
    {
      var ss := Sort(g[secs[k].name]);
      assert ss[i] in multiset(g[secs[k].name]);
    }
    LayoutSingleLine(secs);
  }

  /**
   * With the strip made first, the text sent for a grammar without line
   * breaks reads back as its sections: every intent in order, with all its
   * sentence lines.
   */
  lemma CorrectedEncodeRoundTrip(g: Grammar)
    requires SingleLine(g)
    ensures ReadText(CorrectedEncode(g)) == Some(CorrectedSections(g))
  {
    forall s | NoNewline(s)
      ensures NoNewline(EmitSentence(s))
    {
      EmitSingleLine(s);
    }
    SectionsSingleLine(g, EmitSentence);
    ReadPrinted(CorrectedEncodeLines(g));
    CorrectedLinesRoundTrip(g);
  }

  /** Both ways write the same lines for sentences without a hidden '['. */
  lemma EmitAllAgree(ss: seq<string>)
    requires forall i :: 0 <= i < |ss| ==> !HiddenBracket(ss[i])
    ensures EmitAll(ss, EmitSentenceAsWritten) == EmitAll(ss, EmitSentence)
  {
    forall i | 0 <= i < |ss|
      ensures EmitSentenceAsWritten(ss[i]) == EmitSentence(ss[i])
    {
      EmitSentenceAgrees(ss[i]);
    }
  }

  /** Without a hidden '[' in the grammar, both ways write the same sections. */
  lemma SectionsAgreeWithout(g: Grammar)
    requires NoHiddenBracket(g)
    ensures Sections(g) == CorrectedSections(g)
  {
    var a := Sections(g);
    var b := CorrectedSections(g);
    forall k | 0 <= k < |a|
      ensures a[k] == b[k]
    {
      var n := a[k].name;
      var ss := Sort(g[n]);
      forall i | 0 <= i < |ss|
        ensures !HiddenBracket(ss[i])
      {
        assert ss[i] in multiset(g[n]);
      }
      EmitAllAgree(ss);
    }
  }

  /** A sentence with a hidden '[' makes the two ways write different lines. */
  lemma EmitAllDisagree(ss: seq<string>, i: nat)
    requires i < |ss| && HiddenBracket(ss[i])
    ensures EmitAll(ss, EmitSentenceAsWritten) != EmitAll(ss, EmitSentence)
  {
    EmitSentenceAgrees(ss[i]);
    assert EmitAll(ss, EmitSentenceAsWritten)[i] != EmitAll(ss, EmitSentence)[i];
  }

  /** A sentence with a hidden '[' makes the two ways write different sections for its intent. */
  lemma SectionsDisagree(g: Grammar, n: string, j: nat)
    requires n in g && j < |g[n]| && HiddenBracket(g[n][j])
    ensures Sections(g) != CorrectedSections(g)
  {
    var ss := Sort(g[n]);
    assert g[n][j] in multiset(ss);
    var i :| 0 <= i < |ss| && ss[i] == g[n][j];
    EmitAllDisagree(ss, i);
    SectionsCover(g, EmitSentenceAsWritten, n);
    var a := Sections(g);
    var k :| 0 <= k < |a| && a[k].name == n;
    assert a[k].lines == EmitAll(ss, EmitSentenceAsWritten);
  }

  /**
   * Both ways of writing agree on a grammar exactly when none of its
   * sentences has a hidden '['.
   */
  lemma SectionsAgree(g: Grammar)
    ensures Sections(g) == CorrectedSections(g) <==> NoHiddenBracket(g)
  {
    if NoHiddenBracket(g) {
      SectionsAgreeWithout(g);
    } else {
      var n, j :| n in g && 0 <= j < |g[n]| && HiddenBracket(g[n][j]);
      SectionsDisagree(g, n, j);
    }
  }

  /**
   * As written, the text sent for a grammar without line breaks reads back
   * as its sections when no sentence has a hidden '['.
   */
  lemma EncodeRoundTrip(g: Grammar)
    requires SingleLine(g) && NoHiddenBracket(g)
    ensures ReadText(Encode(g)) == Some(Sections(g))
  {
    SectionsAgree(g);
    CorrectedEncodeRoundTrip(g);
  }

  lemma SortOne(x: string)
    ensures Sort([x]) == [x]
  {
    assert multiset(Sort([x])) == multiset{x};
    assert Sort([x])[0] in multiset(Sort([x]));
  }

  lemma SortSetOne(n: string)
    ensures SortSet({n}) == [n]
  {
    assert SortSet({n})[0] in SortSet({n});
  }

  /** The sections of a grammar with one intent holding one sentence. */
  lemma SectionsOne(n: string, s: string, emit: string -> string)
    ensures SectionsWith(map[n := [s]], emit) == [Section(n, [emit(s)])]
  {
    var g := map[n := [s]];
    assert g.Keys == {n};
    SortSetOne(n);
    SortOne(s);
    assert SectionsWith(g, emit)[0].lines == [emit(s)];
  }

  /** The printed strings and the text for a grammar with one intent holding one sentence. */
  lemma EncodeOne(n: string, s: string)
    ensures EncodeLines(map[n := [s]]) == [Header(n), EmitSentenceAsWritten(s), ""]
    ensures CorrectedEncodeLines(map[n := [s]]) == [Header(n), EmitSentence(s), ""]
  {
    SectionsOne(n, s, EmitSentenceAsWritten);
    SectionsOne(n, s, EmitSentence);
    LayoutOne(Section(n, [EmitSentenceAsWritten(s)]));
    LayoutOne(Section(n, [EmitSentence(s)]));
  }

  /** The layout of a single section. */
  lemma LayoutOne(sec: Section)
    ensures Layout([sec]) == [Header(sec.name)] + sec.lines + [""]
  {
    assert [sec][1..] == [];
  }

  /** Text whose second line is a header has an empty first section, so it does not read. */
  lemma ReadHeaderBody(h: string, t: string)
    requires IsHeader(h) && IsHeader(t)
    ensures ReadSections([h, t, ""]) == None
  {
    assert [h, t, ""][1..][0] == t;
  }

  /** Header and one header-shaped line, printed: the text does not read. */
  lemma ReadHeaderText(n: string, t: string)
    requires NoNewline(n) && NoNewline(t) && IsHeader(t)
    ensures ReadText(JoinLines([Header(n), t, ""])) == None
  {
    var lines := [Header(n), t, ""];
    assert NoNewline(Header(n));
    assert forall i :: 0 <= i < |lines| ==> NoNewline(lines[i]);
    ReadPrinted(lines);
    HeaderName(n);
    ReadHeaderBody(Header(n), t);
  }

  /**
   * As written, an intent whose one sentence is whitespace and then a
   * header-shaped text, such as " [b]", is sent with that text as a line of
   * its own, which reads back as a header: the text no longer reads back.
   * With the strip made first, it is escaped.
   */
  lemma EncodeHiddenHeader(n: string, c: char, t: string)
    requires NoNewline(n) && NoNewline(t)
    requires IsSpace(c) && Stripped(t) && IsHeader(t)
    ensures EncodeLines(map[n := [[c] + t]]) == [Header(n), t, ""]
    ensures ReadText(Encode(map[n := [[c] + t]])) == None
    ensures CorrectedEncodeLines(map[n := [[c] + t]]) == [Header(n), "\\" + t, ""]
  {
    EmitSentenceAsWrittenUnescaped(c, t);
    EncodeOne(n, [c] + t);
    ReadHeaderText(n, t);
  }
}

=== FILE: speech.dfy ===
/**
 * Speech-to-text results: the `TranscriptionResult` enum, the `Transcription`
 * record, and how `speech_to_text` turns a response into one of them.
 */
module Speech {
  import opened Wrappers
  import opened Http

  /** `TranscriptionResult`, a `str` enum with the two values below. */
  datatype TranscriptionResult = Success | Failure {

    /** The enum member's string value. */
    function Value(): string {
      match this
      case Success => "success"
      case Failure => "failure"
    }
  }

  /** `TranscriptionResult(s)`: looks a member up by its string value. */
  function ParseTranscriptionResult(s: string): (r: Option<TranscriptionResult>)
    ensures r.Some? <==> s == "success" || s == "failure"
    ensures r.Some? ==> r.value.Value() == s
  {
    if s == "success" then Some(Success)
    else if s == "failure" then Some(Failure)
    else None
  }

  /** The two members have distinct values, and each value leads back to its member. */
  lemma TranscriptionResultValues(r: TranscriptionResult)
    ensures ParseTranscriptionResult(r.Value()) == Some(r)
    ensures Success.Value() != Failure.Value()
  {
  }

  /**
   * `Transcription`: only `result` is required; the text defaults to empty
   * and the three float metrics (modelled as reals) to zero.
   */
  datatype Transcription = Transcription(
    result: TranscriptionResult,
    text: string := "",
    likelihood: real := 0.0,
    transcribeSeconds: real := 0.0,
    wavSeconds: real := 0.0)

  /**
   * `speech_to_text` once the response is in: success with the body as the
   * transcript when the status passes `raise_for_status` and `assert text`
   * holds; any exception is caught and becomes a failure with defaults.
   */
  function ClassifyTranscription(response: Response): (t: Transcription)
    ensures t.result == Success <==> !RaisesForStatus(response) && response.body != ""
    ensures t.result == Success ==> t.text == response.body && t.text != ""
    ensures t.likelihood == 0.0 && t.transcribeSeconds == 0.0 && t.wavSeconds == 0.0
    ensures t.result == Failure ==> t.text == ""
  {
    if RaisesForStatus(response) then Transcription(Failure)
    else if response.body == "" then Transcription(Failure)
    else Transcription(Success, text := response.body)
  }

  /** The worked examples: 200 with empty body, 200 with text, 500. */
  lemma ClassifyTranscriptionExamples()
    ensures ClassifyTranscription(Response(200, "")) == Transcription(Failure)
    ensures ClassifyTranscription(Response(200, "turn on the lights")).result == Success
    ensures ClassifyTranscription(Response(200, "turn on the lights")).text == "turn on the lights"
    ensures ClassifyTranscription(Response(500, "err")) == Transcription(Failure)
  {
  }
}

=== FILE: stream.dfy ===
/**
 * The chunk generator of the `stream-to-text` command: reads standard input
 * in chunks of `--chunk-size` bytes and yields each chunk, including the
 * first empty one, which ends the stream.
 *
 * A read is modelled as a buffered binary reader's `read(size)`: for a
 * positive size it returns `min(size, remaining)` bytes, for size 0 it
 * returns nothing, for size -1 it returns everything left, and it rejects
 * any smaller size with a `ValueError`. The size is the same on every read,
 * so a rejected size fails the first read, before any chunk is yielded.
 */
module Stream {
  import opened Wrappers

  type byte = bv8

  /** The `ValueError` a buffered reader raises for a size below -1. */
  datatype ReadError = InvalidSize(size: int)

  /** The sizes `read` accepts: -1 (read to the end) and every size from 0 on. */
  predicate ValidSize(chunkSize: int) {
    chunkSize >= -1
  }

  /** The default of `--chunk-size`. */
  const DefaultChunkSize: nat := 1024

  function Min(a: nat, b: nat): nat {
    if a <= b then a else b
  }

  /** The number of bytes `read(chunkSize)` returns at byte `pos` of `source`, for a size it accepts. */
  function ReadLength(source: seq<byte>, chunkSize: int, pos: nat): (n: nat)
    requires ValidSize(chunkSize) && pos <= |source|
    ensures pos + n <= |source|
    ensures n == 0 <==> chunkSize == 0 || pos == |source|
  {
    if chunkSize == -1 then |source| - pos else Min(chunkSize, |source| - pos)
  }

  /**
   * A read is short only at the end of the source: a positive size reads that
   * many bytes while they last, and -1 reads all that is left.
   */
  lemma ReadLengthExact(source: seq<byte>, chunkSize: int, pos: nat)
    requires ValidSize(chunkSize) && pos <= |source|
    ensures chunkSize > 0 ==> ReadLength(source, chunkSize, pos) <= chunkSize
    ensures chunkSize > 0 ==> ReadLength(source, chunkSize, pos) == chunkSize || pos + ReadLength(source, chunkSize, pos) == |source|
    ensures chunkSize == -1 ==> pos + ReadLength(source, chunkSize, pos) == |source|
  {
  }

  /** `read(chunkSize)` at byte `pos`: the bytes it returns, or the error for a size below -1. */
  function Read(source: seq<byte>, chunkSize: int, pos: nat): (r: Result<seq<byte>, ReadError>)
    requires pos <= |source|
    ensures r.Err? <==> !ValidSize(chunkSize)
    ensures r.Err? ==> r.error == InvalidSize(chunkSize)
    ensures r.Ok? ==> r.value == source[pos..pos + ReadLength(source, chunkSize, pos)]
  {
    if !ValidSize(chunkSize) then Err(InvalidSize(chunkSize))
    else Ok(source[pos..pos + ReadLength(source, chunkSize, pos)])
  }

  /** The chunks read from `source` starting at byte `pos`, up to and including the first empty one. */
  function ChunksFrom(source: seq<byte>, chunkSize: int, pos: nat): (chunks: seq<seq<byte>>)
    requires ValidSize(chunkSize) && pos <= |source|
    ensures |chunks| >= 1
    ensures chunks[|chunks| - 1] == []
    decreases |source| - pos
  {
    var n := ReadLength(source, chunkSize, pos);
    if n == 0 then [[]]
    else [source[pos..pos + n]] + ChunksFrom(source, chunkSize, pos + n)
  }

  /** The chunks read from the whole of `source`, for a size `read` accepts. */
  function Chunks(source: seq<byte>, chunkSize: int): (chunks: seq<seq<byte>>)
    requires ValidSize(chunkSize)
    ensures |chunks| >= 1
    ensures chunks[|chunks| - 1] == []
  {
    ChunksFrom(source, chunkSize, 0)
  }

  /** The bytes of all chunks, in order. */
  function Concat(chunks: seq<seq<byte>>): seq<byte> {
    if |chunks| == 0 then [] else chunks[0] + Concat(chunks[1..])
  }

  /**
   * Only the last chunk is empty: the stream stops right after its first
   * empty chunk. For a positive size every chunk holds at most that many
   * bytes.
   */
  lemma {:induction false} ChunksFromShape(source: seq<byte>, chunkSize: int, pos: nat)
    requires ValidSize(chunkSize) && pos <= |source|
    ensures chunkSize > 0 ==> forall i :: 0 <= i < |ChunksFrom(source, chunkSize, pos)| ==> |ChunksFrom(source, chunkSize, pos)[i]| <= chunkSize
    ensures forall i :: 0 <= i < |ChunksFrom(source, chunkSize, pos)| - 1 ==> ChunksFrom(source, chunkSize, pos)[i] != []
    decreases |source| - pos
  {
    var n := ReadLength(source, chunkSize, pos);
    if n > 0 {
      ChunksFromShape(source, chunkSize, pos + n);
    }
  }

  /**
   * Concatenating the chunks read from `pos` on reproduces the source bytes
   * from `pos` on, unless the size is 0, when nothing is read.
   */
  lemma {:induction false} ChunksFromConcat(source: seq<byte>, chunkSize: int, pos: nat)
    requires ValidSize(chunkSize) && pos <= |source|
    ensures Concat(ChunksFrom(source, chunkSize, pos)) == if chunkSize == 0 then [] else source[pos..]
    decreases |source| - pos
  {
    var n := ReadLength(source, chunkSize, pos);
    if n == 0 {
      ChunksFromEnd(source, chunkSize, pos);
    } else {
      ChunksFromConcat(source, chunkSize, pos + n);
      ChunksFromConcatStep(source, chunkSize, pos, n);
    }
  }

  /** A non-empty read followed by the rest of the source from where it ends gives the source from `pos`. */
  lemma ChunksFromConcatStep(source: seq<byte>, chunkSize: int, pos: nat, n: nat)
    requires ValidSize(chunkSize) && pos <= |source| && n == ReadLength(source, chunkSize, pos) && n > 0
    requires Concat(ChunksFrom(source, chunkSize, pos + n)) == source[pos + n..]
    ensures Concat(ChunksFrom(source, chunkSize, pos)) == source[pos..]
  {
    var c := ChunksFrom(source, chunkSize, pos);
    assert c[0] == source[pos..pos + n] && c[1..] == ChunksFrom(source, chunkSize, pos + n);
    assert Concat(c) == source[pos..pos + n] + source[pos + n..];
    assert source[pos..] == source[pos..pos + n] + source[pos + n..];
  }

  /** Where the read is empty, the only chunk is the empty one and nothing remains to be read unless the size is 0. */
  lemma ChunksFromEnd(source: seq<byte>, chunkSize: int, pos: nat)
    requires ValidSize(chunkSize) && pos <= |source| && ReadLength(source, chunkSize, pos) == 0
    ensures ChunksFrom(source, chunkSize, pos) == [[]]
    ensures Concat(ChunksFrom(source, chunkSize, pos)) == if chunkSize == 0 then [] else source[pos..]
  {
    var c: seq<seq<byte>> := [[]];
    assert Concat(c) == [] + Concat(c[1..]);
    assert chunkSize != 0 ==> pos == |source|;
  }

  /** Concatenating all chunks reproduces the source bytes in order, unless the size is 0. */
  lemma ChunksConcat(source: seq<byte>, chunkSize: int)
    requires ValidSize(chunkSize)
    ensures Concat(Chunks(source, chunkSize)) == if chunkSize == 0 then [] else source
  {
    ChunksFromConcat(source, chunkSize, 0);
  }

  /** Only the last chunk is empty; for a positive size every chunk holds at most that many bytes. */
  lemma ChunksShape(source: seq<byte>, chunkSize: int)
    requires ValidSize(chunkSize)
    ensures chunkSize > 0 ==> forall i :: 0 <= i < |Chunks(source, chunkSize)| ==> |Chunks(source, chunkSize)[i]| <= chunkSize
    ensures forall i :: 0 <= i < |Chunks(source, chunkSize)| - 1 ==> Chunks(source, chunkSize)[i] != []
  {
    ChunksFromShape(source, chunkSize, 0);
  }

  /**
   * The other sizes `read` accepts: with size 0 the first read is empty, so
   * the only chunk is the empty one; with size -1 the first read takes all
   * the input.
   */
  lemma ChunksOfNonPositive(source: seq<byte>, chunkSize: int)
    ensures chunkSize == 0 ==> Chunks(source, chunkSize) == [[]]
    ensures chunkSize == -1 && |source| > 0 ==> Chunks(source, chunkSize) == [source, []]
    ensures chunkSize == -1 && |source| == 0 ==> Chunks(source, chunkSize) == [[]]
  {
    if chunkSize == -1 && |source| > 0 {
      assert ChunksFrom(source, chunkSize, |source|) == [[]];
      assert source[0..|source|] == source;
    }
  }

  /** 2500 bytes at the default size: 1024, 1024 and 452 bytes, then the empty chunk. */
  lemma ChunksExample(source: seq<byte>)
    requires |source| == 2500
    ensures |Chunks(source, DefaultChunkSize)| == 4
    ensures |Chunks(source, DefaultChunkSize)[0]| == 1024
    ensures |Chunks(source, DefaultChunkSize)[1]| == 1024
    ensures |Chunks(source, DefaultChunkSize)[2]| == 452
    ensures Chunks(source, DefaultChunkSize)[3] == []
  {
    var k := DefaultChunkSize;
    assert ChunksFrom(source, k, 2500) == [[]];
    assert ChunksFrom(source, k, 2048) == [source[2048..2500]] + [[]];
    assert ChunksFrom(source, k, 1024) == [source[1024..2048]] + [source[2048..2500]] + [[]];
    assert ChunksFrom(source, k, 0) == [source[0..1024]] + [source[1024..2048]] + [source[2048..2500]] + [[]];
  }

  /** Reading one chunk at `pos`: after a non-empty one come the chunks read from where it ends. */
  lemma ChunksFromStep(source: seq<byte>, chunkSize: int, pos: nat)
    requires ValidSize(chunkSize) && pos <= |source|
    ensures var n := ReadLength(source, chunkSize, pos);
      ChunksFrom(source, chunkSize, pos)
        == [source[pos..pos + n]] + (if n > 0 then ChunksFrom(source, chunkSize, pos + n) else [])
  {
    if ReadLength(source, chunkSize, pos) == 0 {
      assert source[pos..pos] == [];
    }
  }

  /** One round of the generator's loop keeps the chunks yielded so far a prefix of all chunks. */
  lemma GeneratorStep(source: seq<byte>, chunkSize: int, chunks: seq<seq<byte>>, pos: nat)
    requires ValidSize(chunkSize) && pos <= |source|
    requires chunks + ChunksFrom(source, chunkSize, pos) == Chunks(source, chunkSize)
    ensures var n := ReadLength(source, chunkSize, pos);
      (chunks + [source[pos..pos + n]]) + (if n > 0 then ChunksFrom(source, chunkSize, pos + n) else [])
        == Chunks(source, chunkSize)
  {
    var n := ReadLength(source, chunkSize, pos);
    ChunksFromStep(source, chunkSize, pos);
    var rest := if n > 0 then ChunksFrom(source, chunkSize, pos + n) else [];
    assert chunks + ([source[pos..pos + n]] + rest) == (chunks + [source[pos..pos + n]]) + rest;
  }

  /** What the chunk sequence promises, stated of a sequence equal to it. */
  lemma ChunksFacts(source: seq<byte>, chunkSize: int, chunks: seq<seq<byte>>)
    requires ValidSize(chunkSize) && chunks == Chunks(source, chunkSize)
    ensures Concat(chunks) == if chunkSize == 0 then [] else source
    ensures |chunks| >= 1 && chunks[|chunks| - 1] == []
    ensures chunkSize > 0 ==> forall i :: 0 <= i < |chunks| ==> |chunks[i]| <= chunkSize
  {
    ChunksConcat(source, chunkSize);
    ChunksShape(source, chunkSize);
  }

  /**
   * The generator as written: read one chunk and yield it; while the last
   * chunk was not empty, read and yield another. A size below -1 makes the
   * first read fail, so the generator raises before yielding anything.
   */
  method ChunkGenerator(source: seq<byte>, chunkSize: int) returns (r: Result<seq<seq<byte>>, ReadError>)
    ensures r.Err? <==> chunkSize < -1
    ensures r.Err? ==> r.error == InvalidSize(chunkSize)
    ensures r.Ok? ==> r.value == Chunks(source, chunkSize)
    ensures r.Ok? ==> Concat(r.value) == if chunkSize == 0 then [] else source
    ensures r.Ok? ==> r.value[|r.value| - 1] == []
    ensures r.Ok? && chunkSize > 0 ==> forall i :: 0 <= i < |r.value| ==> |r.value[i]| <= chunkSize
  {
    var first := Read(source, chunkSize, 0);
    if first.Err? {
      return Err(first.error);
    }
    var chunk := first.value;
    var chunks := [chunk];
    var pos := |chunk|;
    while |chunk| > 0
      invariant pos <= |source|
      invariant |chunk| > 0 ==> chunks + ChunksFrom(source, chunkSize, pos) == Chunks(source, chunkSize)
      invariant |chunk| == 0 ==> chunks == Chunks(source, chunkSize)
      decreases |source| - pos, |chunk|
    {
      chunk := Read(source, chunkSize, pos).value;
      GeneratorStep(source, chunkSize, chunks, pos);
      chunks := chunks + [chunk];
      pos := pos + |chunk|;
    }
    ChunksFacts(source, chunkSize, chunks);
    r := Ok(chunks);
  }
}

=== FILE: strings.dfy ===
/**
 * Text helpers with the behaviour of the Python string operations the client
 * relies on: `str.strip()`, `re.split(r"\s+", s, maxsplit=1)`, line splitting
 * on '\n' and `print(..., file=f)`, which writes a line followed by '\n'.
 *
 * One fixed whitespace predicate is used for both `strip()` and `\s`.
 */
module Strings {

  /** The whitespace characters recognised by `strip()` and by `\s`. */
  predicate IsSpace(c: char) {
    c == ' ' || c == '\t' || c == '\n' || c == '\r' || c == '\U{000B}' || c == '\U{000C}'
  }

  /** No character of `s` is whitespace. */
  predicate NoSpace(s: string) {
    forall i :: 0 <= i < |s| ==> !IsSpace(s[i])
  }

  /** Every character of `s` is whitespace. */
  predicate AllSpace(s: string) {
    forall i :: 0 <= i < |s| ==> IsSpace(s[i])
  }

  /** `s` neither starts nor ends with whitespace (what `strip()` returns). */
  predicate Stripped(s: string) {
    |s| == 0 || (!IsSpace(s[0]) && !IsSpace(s[|s| - 1]))
  }

  /** `s` contains no line break. */
  predicate NoNewline(s: string) {
    forall i :: 0 <= i < |s| ==> s[i] != '\n'
  }

  predicate StartsWith(s: string, c: char) {
    |s| > 0 && s[0] == c
  }

  predicate EndsWith(s: string, c: char) {
    |s| > 0 && s[|s| - 1] == c
  }

  /** The length of the leading whitespace run of `s`. */
  function LeadingSpace(s: string): (n: nat)
    ensures n <= |s|
    ensures forall i :: 0 <= i < n ==> IsSpace(s[i])
    ensures n == |s| || !IsSpace(s[n])
  {
    if |s| > 0 && IsSpace(s[0]) then 1 + LeadingSpace(s[1..]) else 0
  }

  /** The length of the trailing whitespace run of `s`. */
  function TrailingSpace(s: string): (n: nat)
    ensures n <= |s|
    ensures forall i :: |s| - n <= i < |s| ==> IsSpace(s[i])
    ensures n == |s| || !IsSpace(s[|s| - 1 - n])
  {
    if |s| > 0 && IsSpace(s[|s| - 1]) then 1 + TrailingSpace(s[..|s| - 1]) else 0
  }

  /** `str.rstrip()`: drops the trailing whitespace run. */
  function TrimEnd(s: string): (r: string)
    ensures |r| <= |s|
    ensures |r| == 0 || !IsSpace(r[|r| - 1])
  {
    s[..|s| - TrailingSpace(s)]
  }

  /**
   * `str.strip()`: `s` without its leading and trailing whitespace runs;
   * what remains starts right after the leading run and is followed by
   * whitespace only.
   */
  function Strip(s: string): (r: string)
    ensures Stripped(r)
    ensures LeadingSpace(s) + |r| <= |s|
    ensures forall i :: 0 <= i < |r| ==> r[i] == s[LeadingSpace(s) + i]
    ensures forall i :: LeadingSpace(s) + |r| <= i < |s| ==> IsSpace(s[i])
  {
    var n := LeadingSpace(s);
    var t := s[n..];
    var r := t[..|t| - TrailingSpace(t)];
    StripStarts(s, n, t, r);
    StripEnds(s, n, t, r);
    r
  }

  /** Cutting the trailing whitespace run off `s[n..]` keeps a run of `s` starting at `n`. */
  lemma StripStarts(s: string, n: nat, t: string, r: string)
    requires n <= |s| && t == s[n..] && r == t[..|t| - TrailingSpace(t)]
    ensures |r| == 0 || r[0] == t[0]
    ensures forall i :: 0 <= i < |r| ==> r[i] == s[n + i]
  {
  }

  /** What is cut off the end of `s[n..]` with its trailing whitespace run is whitespace. */
  lemma StripEnds(s: string, n: nat, t: string, r: string)
    requires n <= |s| && t == s[n..] && r == t[..|t| - TrailingSpace(t)]
    ensures n + |r| <= |s|
    ensures forall i :: n + |r| <= i < |s| ==> IsSpace(s[i])
  {
    var m := TrailingSpace(t);
    forall i | n + |r| <= i < |s|
      ensures IsSpace(s[i])
    {
      assert |t| - m <= i - n < |t| && t[i - n] == s[i];
    }
  }

  /** A non-space character in front does not change the trailing whitespace run. */
  lemma {:induction false} TrailingSpaceCons(c: char, s: string)
    requires !IsSpace(c)
    ensures TrailingSpace([c] + s) == TrailingSpace(s)
    decreases |s|
  {
    var e := [c] + s;
    if |s| > 0 && IsSpace(s[|s| - 1]) {
      assert e[..|e| - 1] == [c] + s[..|s| - 1];
      TrailingSpaceCons(c, s[..|s| - 1]);
    } else {
      assert e[|e| - 1] == if |s| > 0 then s[|s| - 1] else c;
    }
  }

  /** `rstrip()` of a string behind a non-space character keeps that character. */
  lemma TrimEndCons(c: char, s: string)
    requires !IsSpace(c)
    ensures TrimEnd([c] + s) == [c] + TrimEnd(s)
  {
    TrailingSpaceCons(c, s);
  }

  /** A string that starts with a non-space character loses only its end to `strip()`. */
  lemma StripNonSpaceStart(s: string)
    requires |s| > 0 && !IsSpace(s[0])
    ensures Strip(s) == TrimEnd(s)
  {
    assert s[0..] == s;
  }

  /** A whitespace character in front makes no difference to `strip()`. */
  lemma StripSpaceStart(c: char, t: string)
    requires IsSpace(c)
    ensures Strip([c] + t) == Strip(t)
  {
    var s := [c] + t;
    assert s[1..] == t;
    assert s[LeadingSpace(s)..] == t[LeadingSpace(t)..];
  }

  /** Stripping text that is already stripped changes nothing. */
  lemma StripStripped(s: string)
    requires Stripped(s)
    ensures Strip(s) == s
  {
  }

  /** The index of the first whitespace character of `s`, or `|s|` when there is none. */
  function FirstSpace(s: string): (i: nat)
    ensures i <= |s| && NoSpace(s[..i]) && (i == |s| || IsSpace(s[i]))
  {
    if |s| == 0 || IsSpace(s[0]) then 0
    else
      var i := 1 + FirstSpace(s[1..]);
      assert forall k :: 1 <= k < i ==> s[..i][k] == s[1..][..i - 1][k - 1];
      i
  }

  /**
   * `re.split(r"\s+", s, maxsplit=1)`: one field when `s` has no whitespace;
   * otherwise the text before the first whitespace run and the text after
   * that whole run.
   */
  function SplitAtSpace(s: string): (r: Fields)
    ensures r.OneField? <==> NoSpace(s)
    ensures r.TwoFields? ==>
              && NoSpace(r.first)
              && |r.run| > 0 && AllSpace(r.run)
              && (|r.rest| == 0 || !IsSpace(r.rest[0]))
              && s == r.first + r.run + r.rest
  {
    var i := FirstSpace(s);
    if i == |s| then
      assert s[..i] == s;
      OneField
    else
      var n := LeadingSpace(s[i..]);
      SplitParts(s, i, n);
      TwoFields(s[..i], s[i..i + n], s[i + n..])
  }

  /** The three parts `SplitAtSpace` cuts at the first whitespace run. */
  lemma SplitParts(s: string, i: nat, n: nat)
    requires i < |s| && NoSpace(s[..i]) && IsSpace(s[i])
    requires n == LeadingSpace(s[i..])
    ensures i + n <= |s|
    ensures |s[i..i + n]| > 0 && AllSpace(s[i..i + n])
    ensures |s[i + n..]| == 0 || !IsSpace(s[i + n..][0])
    ensures s == s[..i] + s[i..i + n] + s[i + n..]
  {
    assert forall k :: 0 <= k < n ==> s[i..i + n][k] == s[i..][k];
    assert s[i + n..] == s[i..][n..];
  }

  /** The result of `SplitAtSpace`: the two fields and the separating run. */
  datatype Fields = OneField | TwoFields(first: string, run: string, rest: string)

  /** Splitting on '\n': the pieces between line breaks (always at least one). */
  function SplitLines(s: string): (r: seq<string>)
    ensures |r| >= 1
    ensures forall i :: 0 <= i < |r| ==> NoNewline(r[i])
  {
    if |s| == 0 then [""]
    else
      var rest := SplitLines(s[1..]);
      if s[0] == '\n' then [""] + rest
      else [[s[0]] + rest[0]] + rest[1..]
  }

  /** The text `print` writes for `lines`: each line followed by '\n'. */
  function JoinLines(lines: seq<string>): string
  {
    if |lines| == 0 then "" else lines[0] + "\n" + JoinLines(lines[1..])
  }

  /** Splitting a line, its terminator and more text peels that line off. */
  lemma {:induction false} SplitLinesCons(line: string, rest: string)
    requires NoNewline(line)
    ensures SplitLines(line + "\n" + rest) == [line] + SplitLines(rest)
  {
    if |line| == 0 {
      assert line + "\n" + rest == ['\n'] + rest;
      assert (['\n'] + rest)[1..] == rest;
    } else {
      var s := line + "\n" + rest;
      assert s[1..] == line[1..] + "\n" + rest;
      SplitLinesCons(line[1..], rest);
      assert [line[0]] + line[1..] == line;
    }
  }

  /**
   * Splitting the text of printed lines gives the lines back, plus the empty
   * piece after the final '\n'.
   */
  lemma {:induction false} SplitJoinLines(lines: seq<string>)
    requires forall i :: 0 <= i < |lines| ==> NoNewline(lines[i])
    ensures SplitLines(JoinLines(lines)) == lines + [""]
  {
    if |lines| > 0 {
      SplitLinesCons(lines[0], JoinLines(lines[1..]));
      SplitJoinLines(lines[1..]);
      assert lines == [lines[0]] + lines[1..];
    }
  }
}

=== FILE: train.dfy ===
/**
 * Training results: the `TrainingResult` enum, the `TrainingComplete` record,
 * the query string `train` sends and how it turns the response into a result.
 */
module Train {
  import opened Wrappers
  import opened Http

  /** `TrainingResult`, a `str` enum with the two values below. */
  datatype TrainingResult = Success | Failure {

    /** The enum member's string value. */
    function Value(): string {
      match this
      case Success => "success"
      case Failure => "failure"
    }
  }

  /** `TrainingResult(s)`: looks a member up by its string value. */
  function ParseTrainingResult(s: string): (r: Option<TrainingResult>)
    ensures r.Some? <==> s == "success" || s == "failure"
    ensures r.Some? ==> r.value.Value() == s
  {
    if s == "success" then Some(Success)
    else if s == "failure" then Some(Failure)
    else None
  }

  /** The two members have distinct values, and each value leads back to its member. */
  lemma TrainingResultValues(r: TrainingResult)
    ensures ParseTrainingResult(r.Value()) == Some(r)
    ensures Success.Value() != Failure.Value()
  {
  }

  /** `TrainingComplete`: `result` is required, `errors` defaults to empty. */
  datatype TrainingComplete = TrainingComplete(result: TrainingResult, errors: string := "")

  /** The query parameters of the training request. */
  function TrainParams(noCache: bool): (params: map<string, string>)
    ensures "no_cache" in params <==> noCache
    ensures forall k :: k in params ==> k == "no_cache" && params[k] == "true"
  {
    if noCache then map["no_cache" := "true"] else map[]
  }

  /**
   * `train` once the response is in: success with no errors unless
   * `raise_for_status` raises, which is caught and becomes a failure
   * carrying the whole response body.
   */
  function ClassifyTraining(response: Response): (t: TrainingComplete)
    ensures t.result == Success <==> !RaisesForStatus(response)
    ensures t.result == Success ==> t.errors == ""
    ensures t.result == Failure ==> t.errors == response.body
  {
    if RaisesForStatus(response) then TrainingComplete(Failure, errors := response.body)
    else TrainingComplete(Success)
  }

  /** A successful status ignores the body, whatever it says. */
  lemma TrainingIgnoresBodyOnSuccess(status: int, body1: string, body2: string)
    requires status < 400
    ensures ClassifyTraining(Response(status, body1)) == ClassifyTraining(Response(status, body2))
  {
  }

  /** The worked examples: 200 with empty body, 400 with a message. */
  lemma ClassifyTrainingExamples()
    ensures ClassifyTraining(Response(200, "")) == TrainingComplete(Success)
    ensures ClassifyTraining(Response(400, "bad profile")) == TrainingComplete(Failure, "bad profile")
  {
  }
}

=== FILE: wrappers.dfy ===
/** Small failure-carrying datatypes shared by the codecs. */
module Wrappers {

  /** A value that may be absent (Python's `None`). */
  datatype Option<+T> = None | Some(value: T)

  /** The outcome of a decoder: a value, or the error the source would raise. */
  datatype Result<+T, +E> = Ok(value: T) | Err(error: E)
}
